=== FILE: README.md ===
# Verilog netlist lexer and arithmetic recursive-descent parser, in Dafny

A model of `verilogNet_BNF.py`, which contains two pieces:

- `gen_token` is a regular-expression lexer for Verilog netlists. It has twelve named rules, tried in order at each position:
  - ID, the punctuation rules, and NUMBER;
  - NEWLINE, SKIP and the two comment styles;
  - MISMATCH, a catch-all.

  Whitespace, comments, NEWLINE and MISMATCH matches are dropped. Line and column numbers are tracked. Identifiers spelled like one of seven keywords take the keyword as their type.
- `ExpressionEvaluator` and `ExpressionTreeBuilder` are a recursive-descent parser for `+ - * /` and parentheses over a token stream, built on a one-token lookahead cursor (`_advance`, `_accept`, `_expect`). The evaluator folds the input to an integer. The tree builder returns nested `(op, left, right)` tuples.

Modules:

- `Results`: `Option` and `Result`.
- `NetlistLexer`: the rules and one matcher per rule.
  - Each matcher's contract relates its result to an independent `Lexeme(rule, text)` language predicate, the set of strings each pattern denotes. The matcher returns the longest lexeme, or reports that none exists.
  - `FirstMatch` is the alternation of `re.finditer`, where the first rule in list order wins.
  - `Matches` is the whole scan and `GenToken` is the generator loop.
- `NetlistLexerFacts`: `gen_token` stated against `Render`, an independent description.
  - `Render` keeps the yielded matches of the scan.
  - It numbers lines by counting the NEWLINE matches before a token.
  - It numbers columns from the end of the last NEWLINE.

  Also here: coverage, keyword promotion, and which types are never yielded.
- `NetlistLexerVectors`: worked inputs.
- `ExprCursor`: tokens, the cursor and its primitives.
- `ExprParser`: the grammar rules. The rules are written once, over a `Reduction` that says what a NUM and an operator application become:
  - `Fold` gives integers with Python 2 arithmetic;
  - `Grow` gives trees.
- `ExprParserFacts`: two properties.
  - **Agreement.** The evaluator computes `Eval` of the builder's tree.
  - **Round trip.** The builder recovers every tree from its tokens written with the fewest parentheses. This fixes precedence and left associativity.

  Also here: the two syntax errors.
- `ExprParserVectors`: the demonstration inputs of the two classes, and more.

Quirks of the code that the model keeps:

- **Block comments.** Newlines inside a block comment are not counted, because the code never looks inside a comment match. `CommentNewlineNotCounted` proves that the token after `/*\n*/` is on line 1.
- **Columns on line 1.** `line_column_start` starts at 1, so a token at offset 0 of line 1 gets column 0. Only later lines number columns from 1.
- **Division.** `/` is Python 2 integer division, which rounds towards negative infinity, not towards zero.
- **NUMBER.** The NUMBER pattern `\d(\.\d+)*` takes exactly one leading digit, so `12` is two NUMBER tokens (`TwoDigitNumber`). Any number of `.digits` groups may follow.
- **Syntax errors.** A syntax error carries only its message, not a line or column.

## Model

| member | source | states |
|---|---|---|
| NetlistLexer.MatchId | verilogNet_BNF.py:11 | a letter starts the longest run of word characters, and that run is the greatest identifier lexeme at `i`; with no letter, no identifier lexeme starts there |
| NetlistLexer.MatchPunct | verilogNet_BNF.py:12-16 | a one-character rule matches exactly its character, and nothing else is a lexeme of it; NEWLINE (line 18) is one of these rules too |
| NetlistLexer.MatchNumber | verilogNet_BNF.py:17 | the result is the longest prefix in the language digit, then `.digits` groups; with no digit, there is no NUMBER lexeme |
| NetlistLexer.NumberEnd | verilogNet_BNF.py:17 | taking `.digits` groups while a dot and a digit follow ends at the longest NUMBER lexeme |
| NetlistLexer.MatchSkip | verilogNet_BNF.py:19 | the longest run of blanks and tabs, or no SKIP lexeme |
| NetlistLexer.LastClose | verilogNet_BNF.py:20 | finds the last star-slash in a range, or reports there is none |
| NetlistLexer.MatchCommentL | verilogNet_BNF.py:20 | a block comment runs from slash-star to the LAST star-slash of the input (greedy, across newlines), or there is no block-comment lexeme |
| NetlistLexer.MatchCommentS | verilogNet_BNF.py:21 | two slashes and the rest of the line up to, not including, the newline |
| NetlistLexer.MatchMismatch | verilogNet_BNF.py:22 | any one character except a newline |
| NetlistLexer.MatchRule | verilogNet_BNF.py:10-22 | for every rule, Some(e) means `s[i..e]` is its longest lexeme and None means it has none |
| NetlistLexer.Pick | verilogNet_BNF.py:26-27 | the chosen rule matches, and every rule listed before it does not |
| NetlistLexer.FirstMatch | verilogNet_BNF.py:26-32 | the match at `i` is the longest lexeme of its rule, and no rule listed earlier has any lexeme at `i`; some rule always matches |
| NetlistLexer.Matches | verilogNet_BNF.py:30 | the scan's matches are non-empty, laid end to end from `i` to the end of the input, and each is the first match at its start |
| NetlistLexer.GenTokenFrom | verilogNet_BNF.py:30-44 | the loop yields at most one token per remaining character, and no token's line is below the line counter the loop started from; GenTokenIsRender states its output in full |
| NetlistLexer.GenToken | verilogNet_BNF.py:25-44 | at most one token per input character, each on a line numbered from 1; GenTokenIsRender states the output in full |
| NetlistLexer.KindOf | verilogNet_BNF.py:42-43 | keyword promotion; it carries no contract of its own, and KeywordKind states that a lexeme's type is a keyword exactly when its text is that keyword |
| NetlistLexer.Yielded | verilogNet_BNF.py:33-39 | the rules whose matches become tokens; it carries no contract of its own, and YieldedKindIsNotSkipped states that no yielded type is a skipped one |
| NetlistLexerFacts.FirstMatchUnique | verilogNet_BNF.py:26-32 | any match that is a longest lexeme with no earlier rule matching is the scan's match: the ordered first-match rule determines the result |
| NetlistLexerFacts.LeadRuleWins | verilogNet_BNF.py:10-22 | the winning rule is decided by the character at `i`; for a slash, by whether a block comment can close later |
| NetlistLexerFacts.MatchesCoverInput | verilogNet_BNF.py:30 | the matched texts joined in order are the input from `i`: no character is skipped or read twice |
| NetlistLexerFacts.TilesOrdered | verilogNet_BNF.py:30 | matches laid end to end are increasing and stay within their span |
| NetlistLexerFacts.GenTokenIsRender | verilogNet_BNF.py:25-44 | `gen_token` yields exactly the yielded matches in scan order. The line is 1 plus the NEWLINE matches before the token; the column is its start minus the end of the last NEWLINE (1 before any), plus 1 |
| NetlistLexerFacts.LineStartBound | verilogNet_BNF.py:37-41 | no token starts before its line's start, so the column is at least 0 |
| NetlistLexerFacts.TokensAreYieldedLexemes | verilogNet_BNF.py:33-44 | every token's text is a lexeme of a yielded rule and its type is that rule's name or keyword; its line is at least 1 and its column at least 0 |
| NetlistLexerFacts.KeywordsAreIdentifiers | verilogNet_BNF.py:11-24 | a keyword's text is a lexeme of ID only |
| NetlistLexerFacts.KeywordKind | verilogNet_BNF.py:42-43 | a lexeme's type is a keyword exactly when its text is that keyword |
| NetlistLexerFacts.KeywordTokens | verilogNet_BNF.py:42-43 | a token has a keyword type if and only if its text is a keyword, and then the type is the text |
| NetlistLexerFacts.YieldedKindIsNotSkipped | verilogNet_BNF.py:33-44 | a match of a yielded rule never gets the type SKIP, COMMENT_L, COMMENT_S, NEWLINE or MISMATCH, even when it is a keyword |
| NetlistLexerFacts.SkippedKindsNeverYielded | verilogNet_BNF.py:33-39 | no token has type SKIP, COMMENT_L, COMMENT_S, NEWLINE or MISMATCH |
| NetlistLexerVectors.IdentifierAt | verilogNet_BNF.py:11 | an identifier followed by no word character is the whole match at its start |
| NetlistLexerVectors.SingleToken | verilogNet_BNF.py:41-44 | an input that is one identifier or one number yields one token at line 1, column 0 |
| NetlistLexerVectors.CommentAlone | verilogNet_BNF.py:33-34 | an input that is one block comment yields nothing |
| NetlistLexerVectors.CommentThenIdentifier | verilogNet_BNF.py:33-41 | after a block comment, an identifier stays on line 1, with the comment's length as its column |
| NetlistLexerVectors.TwoLines | verilogNet_BNF.py:35-41 | two identifiers separated by a newline are at (1, 0) and (2, 1) |
| NetlistLexerVectors.ModuleKeyword | verilogNet_BNF.py:42-44 | `module` yields the token (module, module, 1, 0) |
| NetlistLexerVectors.NotAKeyword | verilogNet_BNF.py:42-44 | `wire1` keeps type ID |
| NetlistLexerVectors.NumberWithGroups | verilogNet_BNF.py:17 | `1.23` is one NUMBER token |
| NetlistLexerVectors.TwoDigitNumber | verilogNet_BNF.py:17 | `12` is NUMBER `1` at column 0, then NUMBER `2` at column 1 |
| NetlistLexerVectors.LineAndColumn | verilogNet_BNF.py:35-41 | `a\nb` yields ID a at (1, 0) and ID b at (2, 1) |
| NetlistLexerVectors.GreedyComment | verilogNet_BNF.py:20 | the `b` in `/*a*/b/*c*/` is swallowed by one comment |
| NetlistLexerVectors.CommentNewlineNotCounted | verilogNet_BNF.py:33-37 | in `/*\n*/x`, `x` is on line 1 at column 5 |
| ExprCursor.Advance | verilogNet_BNF.py:78-80 | the lookahead becomes the last token, and the unconsumed tokens lose their head |
| ExprCursor.Accept | verilogNet_BNF.py:82-88 | consumes the lookahead exactly when it has the asked type, and says so; otherwise the cursor is unchanged |
| ExprCursor.AcceptEither | verilogNet_BNF.py:101 | the short-circuit `or` of two accepts consumes the lookahead exactly when it has one of the two types |
| ExprCursor.Expect | verilogNet_BNF.py:90-93 | consumes the lookahead when it has the type, else fails with "Expected" and that type |
| ExprCursor.Start | verilogNet_BNF.py:71-75 | after the first advance no token is consumed, and the lookahead is the first token |
| ExprParser.FloorDiv | verilogNet_BNF.py:119-120 | the quotient rounds towards negative infinity, so the remainder has the divisor's sign |
| ExprParser.Apply | verilogNet_BNF.py:104-120 | the only failure is division by zero, and it is a ZeroDivision |
| ExprParser.Fold | verilogNet_BNF.py:104-120 | the evaluator's operator step fails exactly on a division by zero |
| ExprParser.Grow | verilogNet_BNF.py:154-170 | the builder's operator step never fails, not even for `/` by zero |
| ExprParser.Expr | verilogNet_BNF.py:97-108 | on success at least one token is consumed, and the lookahead left is no operator; an input that cannot start a factor fails with "Expected NUMBER or LPAREN" |
| ExprParser.ExprTail | verilogNet_BNF.py:101-108 | the loop consumes nothing and returns its value unchanged unless the lookahead is `+` or `-`, and stops only at a non-operator |
| ExprParser.Term | verilogNet_BNF.py:110-121 | on success at least one token is consumed, and no `*` or `/` is left as the lookahead; the same error as `expr` on a bad start |
| ExprParser.TermTail | verilogNet_BNF.py:114-121 | the loop consumes nothing and returns its value unchanged unless the lookahead is `*` or `/` |
| ExprParser.Factor | verilogNet_BNF.py:123-133 | on success at least one token is consumed; a lookahead that is neither NUM nor LPAREN fails with "Expected NUMBER or LPAREN" |
| ExprParser.Evaluate | verilogNet_BNF.py:71-76 | `parse` of the evaluator fails with "Expected NUMBER or LPAREN" when the input does not start with NUM or LPAREN; EvaluateAgrees relates it to the builder |
| ExprParser.Build | verilogNet_BNF.py:71-76 | `parse` of the builder fails with "Expected NUMBER or LPAREN" when the input does not start with NUM or LPAREN, and never fails with a division by zero |
| ExprParserFacts.Eval | verilogNet_BNF.py:104-120 | evaluating a tree can only fail by dividing by zero |
| ExprParserFacts.ExprAgrees | verilogNet_BNF.py:97-133 | the evaluator's `expr` gives, at the same cursor, the value of the tree that the builder's `expr` (lines 147-183) gives, or that tree's evaluation error. When the builder fails, so does the evaluator |
| ExprParserFacts.ExprTailAgrees | verilogNet_BNF.py:101-107 | the evaluator's `expr` loop and the builder's loop (lines 151-157) agree, given that their accumulators agree |
| ExprParserFacts.TermAgrees | verilogNet_BNF.py:110-121 | the evaluator's `term` and the builder's `term` (lines 160-171) agree |
| ExprParserFacts.TermTailAgrees | verilogNet_BNF.py:114-120 | the evaluator's `term` loop and the builder's loop (lines 164-170) agree, given that their accumulators agree |
| ExprParserFacts.FactorAgrees | verilogNet_BNF.py:123-133 | the evaluator's `factor` and the builder's `factor` (lines 173-183) agree |
| ExprParserFacts.ExprTailPoisoned | verilogNet_BNF.py:151-157 | a tree grown from a subtree that fails to evaluate fails the same way |
| ExprParserFacts.TermTailPoisoned | verilogNet_BNF.py:164-170 | the same for the `term` loop |
| ExprParserFacts.EvaluateAgrees | verilogNet_BNF.py:71-76 | when the builder's `parse` returns a tree, the evaluator's `parse` gives that tree's value, or its ZeroDivision; when the builder fails, the evaluator fails too, with the same error or with ZeroDivision |
| ExprParserFacts.FactorRT | verilogNet_BNF.py:173-181 | `factor` reads back a tree printed as a factor, parenthesised unless it is a NUM, and stops right after it |
| ExprParserFacts.TermPrefix | verilogNet_BNF.py:160-171 | after a printed term, `term` is in its loop with the whole term as `termval` |
| ExprParserFacts.TermTailStep | verilogNet_BNF.py:164-170 | one turn of the `term` loop over a `*` or `/` and a printed factor extends `termval` by one node |
| ExprParserFacts.TermRT | verilogNet_BNF.py:160-171 | `term` reads back a printed term that is followed by no `*` or `/` |
| ExprParserFacts.ExprPrefix | verilogNet_BNF.py:147-158 | after a printed expression, `expr` is in its loop with the whole expression as `exprval` |
| ExprParserFacts.ExprTailStep | verilogNet_BNF.py:151-157 | one turn of the `expr` loop over a `+` or `-` and a printed term extends `exprval` by one node |
| ExprParserFacts.ExprRT | verilogNet_BNF.py:147-158 | `expr` reads back a printed expression that is followed by no operator |
| ExprParserFacts.BuildPrint | verilogNet_BNF.py:146-183 | precedence and left associativity: the builder returns exactly the tree whose fewest-parentheses tokens start the input, whatever non-operator tokens follow |
| ExprParserFacts.EvaluatePrint | verilogNet_BNF.py:97-133 | the evaluator returns the value of that tree |
| ExprParserFacts.DanglingOperator | verilogNet_BNF.py:101-133 | a `+` or `-` at the end of the input fails with "Expected NUMBER or LPAREN" in the builder, and in the evaluator when the tree before it evaluates |
| ExprParserFacts.ExprTailDangling | verilogNet_BNF.py:101-103 | the `expr` loop facing a final `+` or `-` fails in `term` with "Expected NUMBER or LPAREN", in both parsers |
| ExprParserFacts.ExprPrefixFold | verilogNet_BNF.py:97-108 | after a printed expression whose value is defined, the evaluator's `expr` is in its loop with that value as `exprval` |
| ExprParserFacts.ExprTailStepFold | verilogNet_BNF.py:101-107 | one turn of the evaluator's `expr` loop over a `+` or `-` and a printed term adds or subtracts the term's value |
| ExprParserFacts.UnclosedFactor | verilogNet_BNF.py:128-130 | wherever `factor` meets a `(` whose expression is followed by no operator and no `)`, it fails at `_expect('RPAREN')`; in the evaluator too when that expression evaluates |
| ExprParserFacts.UnclosedParen | verilogNet_BNF.py:128-130 | a leading `(` whose expression is followed by no operator and no `)` fails with "Expected RPAREN", in both parsers when no division by zero comes first |
| ExprParserVectors.Printed | verilogNet_BNF.py:71-75 | both parsers on the tokens of a tree: that tree, and its value |
| ExprParserVectors.Single | verilogNet_BNF.py:138 | `2` evaluates to 2 |
| ExprParserVectors.Sum | verilogNet_BNF.py:139 | `2 + 3` is 5, and the builder (line 188) gives the tree `('+', 2, 3)` |
| ExprParserVectors.Precedence | verilogNet_BNF.py:140 | `2 + 3 * 4` is 14, and the builder (line 189) gives the tree `('+', 2, ('*', 3, 4))` |
| ExprParserVectors.ParenthesisedOperand | verilogNet_BNF.py:141 | the tokens and value of `2 + (3 + 4) * 5` |
| ExprParserVectors.Parenthesised | verilogNet_BNF.py:141 | `2 + (3 + 4) * 5` is 37, and the builder (line 190) gives the tree `('+', 2, ('*', ('+', 3, 4), 5))` |
| ExprParserVectors.LeftAssociative | verilogNet_BNF.py:191 | `2 + 3 + 4` is the tree `('+', ('+', 2, 3), 4)` |
| ExprParserVectors.LeftAssociativeMinus | verilogNet_BNF.py:101-107 | `8 - 3 - 2` is 3 |
| ExprParserVectors.FloorDivision | verilogNet_BNF.py:120 | `7 / (0 - 2)` is -4 |
| ExprParserVectors.DivisionByZero | verilogNet_BNF.py:120 | `1 / 0` raises in the evaluator, while the builder returns `('/', 1, 0)` |
| ExprParserVectors.MissingOperand | verilogNet_BNF.py:132-133 | `2 +` fails with "Expected NUMBER or LPAREN" in both parsers |
| ExprParserVectors.MissingRParen | verilogNet_BNF.py:128-130 | `(2 + 3` fails with "Expected RPAREN" in both parsers |
| ExprParserVectors.NumberInsteadOfRParen | verilogNet_BNF.py:128-130 | `(2 3` fails with "Expected RPAREN" in both parsers |
| ExprParserVectors.UnclosedAfterOperator | verilogNet_BNF.py:128-130 | `2 * (3` fails with "Expected RPAREN" in both parsers |
| ExprParserVectors.TrailingIgnored | verilogNet_BNF.py:71-75 | `2 3` is 2: tokens after the expression are never read |
| ExprParserVectors.EmptyInput | verilogNet_BNF.py:132-133 | no tokens fails with "Expected NUMBER or LPAREN" |

## Left out

- `generate_tokens`, `master_pat` and the `Token` namedtuple (lines 46-58) are not modelled. They use names the file never defines (`NUM`, `PLUS`, … and `collections`). The parser is modelled over an abstract token sequence instead, with kinds NUM, PLUS, MINUS, TIMES, DIVIDE, LPAREN and RPAREN. A NUM carries a natural number.
- `int(self.tok.value)` is not modelled: a NUM token already holds its value.
- The MISMATCH diagnostic `print` (line 39) is console output, so it is left out. The match is dropped and scanning continues, as in the code.
- `gen_token` is a lazy generator. The model returns the whole token sequence at once.
- The `__main__` blocks (lines 136-141, 186-191) print results. Their inputs are proved as the vectors above.
- The lexer's input is a sequence of characters, as for a Python 2 `unicode` string on a wide (UCS-4) build, so offsets and columns count characters. On a narrow (UCS-2) build, the default on Windows and macOS, a character outside the Basic Multilingual Plane is two code units: the `.` of MISMATCH, COMMENT_L and COMMENT_S matches each half on its own, and `match_list.start` counts code units, so every later column on that line is one higher per such character than the model's. On a byte `str`, `gen_token` sees each byte of a non-ASCII character as its own MISMATCH, and `match_list.start` counts bytes. Every later column on that line then differs from the model's.
- Python 3's Unicode `\w` and `\d` are not modelled. The file is Python 2 (`print` statement), so without `re.UNICODE` these are ASCII classes.
- The regular-expression engine is not modelled in general. Each of the twelve patterns is matched by a hand-written function, proved to return the longest match of that pattern. Backtracking in Python's greedy matcher gives exactly that longest match for each of these patterns.
- ExprParserFacts.ExprAgrees: when the builder fails, the evaluator's error is only known to be the same error or ZeroDivision. The evaluator divides as it parses, so a division by zero can be raised before a later syntax error is reached.
- ExprParserFacts.DanglingOperator: covers only a trailing `+` or `-`; a trailing `*` or `/` is not covered. The evaluator half assumes the tree before the operator evaluates. When that tree divides by zero, the evaluator raises ZeroDivision before it reaches the operator.
- ExprParserFacts.UnclosedParen: states the case of a leading `(`. An unclosed `(` after other tokens is stated by UnclosedFactor, at the cursor where `factor` meets it, and at the top level only for the input `2 * (3` (UnclosedAfterOperator). A `(` whose contents carry redundant parentheses, such as `((2)`, is not covered, because the lemmas read back expressions written with the fewest parentheses.
- Python's recursion limit is not modelled. CPython 2 stops at 1000 frames by default, and each nested `(` costs three (`factor`, `expr`, `term`). So an input nested about 330 parentheses deep raises `RuntimeError` in both classes, while the model parses it. BuildPrint, EvaluatePrint and the agreement lemmas hold for trees of every depth.
- ExprParserFacts.BuildPrint: this round trip goes from trees to tokens only. Redundant parentheses, as in `(2)`, parse to the same tree as the bare form, so the builder is not injective on token sequences.

=== FILE: expr_cursor.dfy ===
/**
 * The token cursor of `ExpressionEvaluator`: the last token consumed
 * (`tok`), the lookahead (`nexttok`) and the rest of the token stream, with
 * the three primitives the grammar rules are written in.
 */
module ExprCursor {
  import opened Results

  /** Token types of the arithmetic grammar. */
  datatype Kind = NUM | PLUS | MINUS | TIMES | DIVIDE | LPAREN | RPAREN

  /** A token of the arithmetic grammar; a NUM carries the value of its digits. */
  datatype Token = Num(n: nat) | Plus | Minus | Times | Divide | LParen | RParen

  function KindOf(t: Token): Kind {
    match t
    case Num(_) => NUM
    case Plus => PLUS
    case Minus => MINUS
    case Times => TIMES
    case Divide => DIVIDE
    case LParen => LPAREN
    case RParen => RPAREN
  }

  /** Why a parse stops: a `SyntaxError` with its message, or a `ZeroDivisionError`. */
  datatype ParseError = Expected(kind: Kind) | ExpectedNumberOrLParen | ZeroDivision

  /** `self.tok`, `self.nexttok`, and what the token generator has still to produce. */
  datatype Cursor = Cursor(tok: Option<Token>, next: Option<Token>, rest: seq<Token>)

  /** The tokens not yet consumed: the lookahead, then the stream. */
  function Unconsumed(c: Cursor): seq<Token> {
    (if c.next.Some? then [c.next.value] else []) + c.rest
  }

  function Remaining(c: Cursor): nat {
    |Unconsumed(c)|
  }

  /** The lookahead is empty only once the stream is exhausted (`next(tokens, None)`). */
  predicate Valid(c: Cursor) {
    c.next.None? ==> c.rest == []
  }

  /** The lookahead is one of the token types `ks`. */
  predicate At(c: Cursor, ks: set<Kind>) {
    c.next.Some? && KindOf(c.next.value) in ks
  }

  /** `_advance`: the lookahead becomes the last token, and the stream yields the next lookahead. */
  function Advance(c: Cursor): (d: Cursor)
    ensures d.tok == c.next
    ensures Valid(d)
    ensures Unconsumed(d) == c.rest
  {
    if |c.rest| > 0 then Cursor(c.next, Some(c.rest[0]), c.rest[1..])
    else Cursor(c.next, None, [])
  }

  /** `_accept`: consume the lookahead if it has type `k`, and say whether it did. */
  function Accept(c: Cursor, k: Kind): (r: (bool, Cursor))
    ensures r.0 <==> At(c, {k})
    ensures r.0 ==> r.1.tok == c.next && Valid(r.1) && Unconsumed(r.1) == c.rest
    ensures !r.0 ==> r.1 == c
  {
    if c.next.Some? && KindOf(c.next.value) == k then (true, Advance(c)) else (false, c)
  }

  /** `self._accept(k1) or self._accept(k2)`. */
  function AcceptEither(c: Cursor, k1: Kind, k2: Kind): (r: (bool, Cursor))
    ensures r.0 <==> At(c, {k1, k2})
    ensures r.0 ==> r.1.tok == c.next && Valid(r.1) && Unconsumed(r.1) == c.rest
    ensures !r.0 ==> r.1 == c
  {
    var (first, c1) := Accept(c, k1);
    if first then (true, c1) else Accept(c1, k2)
  }

  /** `_expect`: consume the lookahead if it has type `k`, or fail with "Expected k". */
  function Expect(c: Cursor, k: Kind): (r: Result<Cursor, ParseError>)
    ensures r.Ok? <==> At(c, {k})
    ensures r.Ok? ==> r.value.tok == c.next && Valid(r.value) && Unconsumed(r.value) == c.rest
    ensures r.Err? ==> r.error == Expected(k)
  {
    var (accepted, c1) := Accept(c, k);
    if accepted then Ok(c1) else Err(Expected(k))
  }

  /** `parse` sets `tok` and `nexttok` to None and advances once to load the first lookahead. */
  function Start(toks: seq<Token>): (c: Cursor)
    ensures c.tok.None? && Valid(c) && Unconsumed(c) == toks
  {
    Advance(Cursor(None, None, toks))
  }

  /** On a valid cursor the lookahead is the first unconsumed token. */
  lemma LookaheadIsFirst(c: Cursor)
    requires Valid(c)
    ensures c.next.None? <==> Unconsumed(c) == []
    ensures c.next.Some? ==> c.next.value == Unconsumed(c)[0] && c.rest == Unconsumed(c)[1..]
  {
  }
}

=== FILE: expr_parser.dfy ===
/**
 * The recursive-descent parser of `ExpressionEvaluator` and
 * `ExpressionTreeBuilder`.  The two classes share their grammar rules and
 * differ only in what a rule makes of a NUM and of an operator application,
 * so the rules are written once over a `Reduction`: `Fold` computes the
 * value, `Grow` builds the tree.
 *
 *   expression ::= term { ('+'|'-') term }*
 *   term       ::= factor { ('*'|'/') factor }*
 *   factor     ::= NUM | ( expr )
 */
module ExprParser {
  import opened Results
  import opened ExprCursor

  datatype Op = Add | Sub | Mul | Div

  /** The tuples `ExpressionTreeBuilder` returns: a NUM value, or `(op, left, right)`. */
  datatype Tree = Lit(n: nat) | Bin(op: Op, left: Tree, right: Tree)

  /** A rule's result and the cursor after it. */
  datatype Parsed<R> = Parsed(value: R, cursor: Cursor)

  /** What a rule makes of a NUM, and of an operator applied to two results. */
  datatype Reduction<!R> = Reduction(literal: nat -> R, binary: (Op, R, R) -> Result<R, ParseError>)

  /** Python 2 `/` on integers: the quotient rounded towards negative infinity. */
  function FloorDiv(a: int, b: int): (q: int)
    requires b != 0
    ensures b > 0 ==> b * q <= a < b * q + b
    ensures b < 0 ==> b * q + b < a <= b * q
  {
    if b > 0 then a / b else (-a) / (-b)
  }

  /** The arithmetic of `ExpressionEvaluator`; dividing by zero raises. */
  function Apply(op: Op, a: int, b: int): (r: Result<int, ParseError>)
    ensures r.Err? <==> op == Div && b == 0
    ensures r.Err? ==> r.error == ZeroDivision
  {
    match op
    case Add => Ok(a + b)
    case Sub => Ok(a - b)
    case Mul => Ok(a * b)
    case Div => if b == 0 then Err(ZeroDivision) else Ok(FloorDiv(a, b))
  }

  /** A reduction whose operator step never raises. */
  ghost predicate NeverFails<R(!new)>(red: Reduction<R>) {
    forall op, a, b :: red.binary(op, a, b).Ok?
  }

  /** `ExpressionEvaluator`: values; only a division by zero raises. */
  function Fold(): (red: Reduction<int>)
    ensures forall op, a, b :: red.binary(op, a, b).Err? <==> op == Div && b == 0
  {
    Reduction(n => n as int, Apply)
  }

  /** `ExpressionTreeBuilder`: trees; building a node never raises, not even for `/` by zero. */
  function Grow(): (red: Reduction<Tree>)
    ensures NeverFails(red)
  {
    Reduction(n => Lit(n), (op, l, r) => Ok(Bin(op, l, r)))
  }

  /** The lookahead can start a factor. */
  predicate StartsFactor(c: Cursor) {
    At(c, {NUM, LPAREN})
  }

  /** `expr`: a term, then the loop over `+`/`-` terms. */
  function Expr<R(!new)>(red: Reduction<R>, c: Cursor): (r: Result<Parsed<R>, ParseError>)
    ensures r.Ok? ==> Remaining(r.value.cursor) < Remaining(c)
    ensures r.Ok? ==> !At(r.value.cursor, {PLUS, MINUS, TIMES, DIVIDE})
    ensures !StartsFactor(c) ==> r == Err(ExpectedNumberOrLParen)
    ensures NeverFails(red) && r.Err? ==> r.error != ZeroDivision
    decreases Remaining(c), 4
  {
    var left :- Term(red, c);
    ExprTail(red, left.value, left.cursor)
  }

  /** The `while` loop of `expr`, with `acc` the value of `exprval` so far. */
  function ExprTail<R(!new)>(red: Reduction<R>, acc: R, c: Cursor): (r: Result<Parsed<R>, ParseError>)
    requires !At(c, {TIMES, DIVIDE})
    ensures r.Ok? ==> Remaining(r.value.cursor) <= Remaining(c)
    ensures r.Ok? ==> !At(r.value.cursor, {PLUS, MINUS, TIMES, DIVIDE})
    ensures !At(c, {PLUS, MINUS}) ==> r == Ok(Parsed(acc, c))
    ensures NeverFails(red) && r.Err? ==> r.error != ZeroDivision
    decreases Remaining(c), 3
  {
    var (more, c1) := AcceptEither(c, PLUS, MINUS);
    if !more then Ok(Parsed(acc, c))
    else
      var op := if KindOf(c1.tok.value) == PLUS then Add else Sub;
      var right :- Term(red, c1);
      var v :- red.binary(op, acc, right.value);
      ExprTail(red, v, right.cursor)
  }

  /** `term`: a factor, then the loop over `*`/`/` factors. */
  function Term<R(!new)>(red: Reduction<R>, c: Cursor): (r: Result<Parsed<R>, ParseError>)
    ensures r.Ok? ==> Remaining(r.value.cursor) < Remaining(c)
    ensures r.Ok? ==> !At(r.value.cursor, {TIMES, DIVIDE})
    ensures !StartsFactor(c) ==> r == Err(ExpectedNumberOrLParen)
    ensures NeverFails(red) && r.Err? ==> r.error != ZeroDivision
    decreases Remaining(c), 2
  {
    var left :- Factor(red, c);
    TermTail(red, left.value, left.cursor)
  }

  /** The `while` loop of `term`, with `acc` the value of `termval` so far. */
  function TermTail<R(!new)>(red: Reduction<R>, acc: R, c: Cursor): (r: Result<Parsed<R>, ParseError>)
    ensures r.Ok? ==> Remaining(r.value.cursor) <= Remaining(c)
    ensures r.Ok? ==> !At(r.value.cursor, {TIMES, DIVIDE})
    ensures !At(c, {TIMES, DIVIDE}) ==> r == Ok(Parsed(acc, c))
    ensures NeverFails(red) && r.Err? ==> r.error != ZeroDivision
    decreases Remaining(c), 1
  {
    var (more, c1) := AcceptEither(c, TIMES, DIVIDE);
    if !more then Ok(Parsed(acc, c))
    else
      var op := if KindOf(c1.tok.value) == TIMES then Mul else Div;
      var right :- Factor(red, c1);
      var v :- red.binary(op, acc, right.value);
      TermTail(red, v, right.cursor)
  }

  /** `factor`: a NUM, or a parenthesised expression that must be closed. */
  function Factor<R(!new)>(red: Reduction<R>, c: Cursor): (r: Result<Parsed<R>, ParseError>)
    ensures r.Ok? ==> Remaining(r.value.cursor) < Remaining(c)
    ensures !StartsFactor(c) ==> r == Err(ExpectedNumberOrLParen)
    ensures NeverFails(red) && r.Err? ==> r.error != ZeroDivision
    decreases Remaining(c), 0
  {
    var (num, c1) := Accept(c, NUM);
    if num then Ok(Parsed(red.literal(c1.tok.value.n), c1))
    else
      var (open, c2) := Accept(c, LPAREN);
      if open then
        var inner :- Expr(red, c2);
        var c3 :- Expect(inner.cursor, RPAREN);
        Ok(Parsed(inner.value, c3))
      else Err(ExpectedNumberOrLParen)
  }

  /** `ExpressionEvaluator().parse`: the value of the leading expression; later tokens are ignored. */
  function Evaluate(toks: seq<Token>): (r: Result<int, ParseError>)
    ensures !(|toks| > 0 && KindOf(toks[0]) in {NUM, LPAREN}) ==> r == Err(ExpectedNumberOrLParen)
  {
    var p :- Expr(Fold(), Start(toks));
    Ok(p.value)
  }

  /** `ExpressionTreeBuilder().parse`: the tree of the leading expression. */
  function Build(toks: seq<Token>): (r: Result<Tree, ParseError>)
    ensures !(|toks| > 0 && KindOf(toks[0]) in {NUM, LPAREN}) ==> r == Err(ExpectedNumberOrLParen)
    ensures r.Err? ==> r.error != ZeroDivision
  {
    var p :- Expr(Grow(), Start(toks));
    Ok(p.value)
  }
}

=== FILE: expr_parser_facts.dfy ===
/**
 * What the two parsers promise: the evaluator computes exactly the value of
 * the tree the builder returns; the builder recovers every tree from its
 * tokens written with the fewest parentheses, which pins down precedence
 * (`*` and `/` over `+` and `-`) and left associativity; and the ways a
 * parse fails.
 */
module ExprParserFacts {
  import opened Results
  import opened ExprCursor
  import opened ExprParser

  /** The value of a tree, left operand first, with the evaluator's arithmetic. */
  function Eval(t: Tree): (v: Result<int, ParseError>)
    ensures v.Err? ==> v.error == ZeroDivision
  {
    match t
    case Lit(n) => Ok(n)
    case Bin(op, left, right) =>
      var a :- Eval(left);
      var b :- Eval(right);
      Apply(op, a, b)
  }

  /**
   * The evaluator's outcome `f` matches the builder's outcome `g`: the value
   * of the tree at the same cursor, the error evaluating the tree raises, or,
   * when the builder fails, a failure (a division by zero may be raised by
   * the evaluator before the syntax error is reached).
   */
  predicate Agrees(f: Result<Parsed<int>, ParseError>, g: Result<Parsed<Tree>, ParseError>) {
    match g
    case Ok(p) =>
      (match Eval(p.value)
       case Ok(v) => f == Ok(Parsed(v, p.cursor))
       case Err(e) => f == Err(e))
    case Err(e) => f.Err? && (f.error == e || f.error == ZeroDivision)
  }

  /** A builder outcome whose tree, if any, fails to evaluate with `e`. */
  predicate Poisoned(g: Result<Parsed<Tree>, ParseError>, e: ParseError) {
    g.Ok? ==> Eval(g.value.value) == Err(e)
  }

  /** Once the tree so far fails to evaluate, every tree the `expr` loop grows from it fails the same way. */
  lemma {:induction false} ExprTailPoisoned(acc: Tree, e: ParseError, c: Cursor)
    requires Eval(acc) == Err(e) && !At(c, {TIMES, DIVIDE})
    ensures Poisoned(ExprTail(Grow(), acc, c), e)
    decreases Remaining(c)
  {
    var (more, c1) := AcceptEither(c, PLUS, MINUS);
    if more {
      var op := if KindOf(c1.tok.value) == PLUS then Add else Sub;
      var g := Term(Grow(), c1);
      if g.Ok? {
        ExprTailPoisoned(Bin(op, acc, g.value.value), e, g.value.cursor);
      }
    }
  }

  /** Once the tree so far fails to evaluate, every tree the `term` loop grows from it fails the same way. */
  lemma {:induction false} TermTailPoisoned(acc: Tree, e: ParseError, c: Cursor)
    requires Eval(acc) == Err(e)
    ensures Poisoned(TermTail(Grow(), acc, c), e)
    decreases Remaining(c)
  {
    var (more, c1) := AcceptEither(c, TIMES, DIVIDE);
    if more {
      var op := if KindOf(c1.tok.value) == TIMES then Mul else Div;
      var g := Factor(Grow(), c1);
      if g.Ok? {
        TermTailPoisoned(Bin(op, acc, g.value.value), e, g.value.cursor);
      }
    }
  }

  /** `ExpressionEvaluator.expr` computes the value of the tree `ExpressionTreeBuilder.expr` builds. */
  lemma {:induction false} ExprAgrees(c: Cursor)
    ensures Agrees(Expr(Fold(), c), Expr(Grow(), c))
    decreases Remaining(c), 4
  {
    TermAgrees(c);
    var g := Term(Grow(), c);
    if g.Ok? {
      var p := g.value;
      match Eval(p.value) {
        case Ok(v) => ExprTailAgrees(p.value, v, p.cursor);
        case Err(e) => ExprTailPoisoned(p.value, e, p.cursor);
      }
    }
  }

  lemma {:induction false} ExprTailAgrees(acc: Tree, v: int, c: Cursor)
    requires Eval(acc) == Ok(v) && !At(c, {TIMES, DIVIDE})
    ensures Agrees(ExprTail(Fold(), v, c), ExprTail(Grow(), acc, c))
    decreases Remaining(c), 3
  {
    var (more, c1) := AcceptEither(c, PLUS, MINUS);
    if more {
      var op := if KindOf(c1.tok.value) == PLUS then Add else Sub;
      TermAgrees(c1);
      var g := Term(Grow(), c1);
      if g.Ok? {
        var p := g.value;
        var grown := Bin(op, acc, p.value);
        match Eval(p.value) {
          case Ok(w) =>
            match Apply(op, v, w) {
              case Ok(v') => ExprTailAgrees(grown, v', p.cursor);
              case Err(e) => ExprTailPoisoned(grown, e, p.cursor);
            }
          case Err(e) => ExprTailPoisoned(grown, e, p.cursor);
        }
      }
    }
  }

  lemma {:induction false} TermAgrees(c: Cursor)
    ensures Agrees(Term(Fold(), c), Term(Grow(), c))
    decreases Remaining(c), 2
  {
    FactorAgrees(c);
    var g := Factor(Grow(), c);
    if g.Ok? {
      var p := g.value;
      match Eval(p.value) {
        case Ok(v) => TermTailAgrees(p.value, v, p.cursor);
        case Err(e) => TermTailPoisoned(p.value, e, p.cursor);
      }
    }
  }

  lemma {:induction false} TermTailAgrees(acc: Tree, v: int, c: Cursor)
    requires Eval(acc) == Ok(v)
    ensures Agrees(TermTail(Fold(), v, c), TermTail(Grow(), acc, c))
    decreases Remaining(c), 1
  {
    var (more, c1) := AcceptEither(c, TIMES, DIVIDE);
    if more {
      var op := if KindOf(c1.tok.value) == TIMES then Mul else Div;
      FactorAgrees(c1);
      var g := Factor(Grow(), c1);
      if g.Ok? {
        var p := g.value;
        var grown := Bin(op, acc, p.value);
        match Eval(p.value) {
          case Ok(w) =>
            match Apply(op, v, w) {
              case Ok(v') => TermTailAgrees(grown, v', p.cursor);
              case Err(e) => TermTailPoisoned(grown, e, p.cursor);
            }
          case Err(e) => TermTailPoisoned(grown, e, p.cursor);
        }
      }
    }
  }

  lemma {:induction false} FactorAgrees(c: Cursor)
    ensures Agrees(Factor(Fold(), c), Factor(Grow(), c))
    decreases Remaining(c), 0
  {
    var (num, c1) := Accept(c, NUM);
    if !num {
      var (open, c2) := Accept(c, LPAREN);
      if open {
        ExprAgrees(c2);
      }
    }
  }

  /**
   * `parse` of the two classes: the evaluator gives the value of the builder's
   * tree, or its ZeroDivision; when the builder fails, the evaluator fails too,
   * with the same error or with ZeroDivision.
   */
  lemma EvaluateAgrees(toks: seq<Token>)
    ensures Build(toks).Ok? ==> Evaluate(toks) == Eval(Build(toks).value)
    ensures Build(toks).Err? ==> Evaluate(toks).Err?
    ensures Build(toks).Err? ==> Evaluate(toks).error in {Build(toks).error, ZeroDivision}
  {
    ExprAgrees(Start(toks));
  }

  /** Binding strength: 1 for `+` and `-`, 2 for `*` and `/`; a factor is 3. */
  function Prec(op: Op): nat {
    if op == Add || op == Sub then 1 else 2
  }

  function OpToken(op: Op): Token {
    match op
    case Add => Plus
    case Sub => Minus
    case Mul => Times
    case Div => Divide
  }

  /**
   * The tokens of `t` with the fewest parentheses, where it stands in a
   * place that needs strength `ctx` (1: an expression, 2: a term, 3: a
   * factor).  A right operand of the same strength is parenthesised, since
   * both loops associate to the left.
   */
  function Print(t: Tree, ctx: nat): (toks: seq<Token>)
    ensures |toks| >= 1
  {
    match t
    case Lit(n) => [Num(n)]
    case Bin(op, left, right) =>
      var body := Print(left, Prec(op)) + [OpToken(op)] + Print(right, Prec(op) + 1);
      if Prec(op) < ctx then [LParen] + body + [RParen] else body
  }

  /** The first of `rest`, if any, does not have a type in `ks`. */
  predicate Stops(rest: seq<Token>, ks: set<Kind>) {
    |rest| == 0 || KindOf(rest[0]) !in ks
  }

  /** A factor printed at the front of the input is parsed back by `factor`. */
  lemma {:induction false} FactorRT(t: Tree, c: Cursor, rest: seq<Token>)
    requires Valid(c) && Unconsumed(c) == Print(t, 3) + rest
    ensures Factor(Grow(), c).Ok?
    ensures Factor(Grow(), c).value.value == t
    ensures Valid(Factor(Grow(), c).value.cursor)
    ensures Unconsumed(Factor(Grow(), c).value.cursor) == rest
    decreases Remaining(c), 0, t
  {
    LookaheadIsFirst(c);
    if t.Bin? {
      assert Print(t, 3) == [LParen] + Print(t, 1) + [RParen];
      assert Unconsumed(c) == [LParen] + (Print(t, 1) + ([RParen] + rest));
      var (_, c2) := Accept(c, LPAREN);
      ExprRT(t, c2, [RParen] + rest);
      var inner := Expr(Grow(), c2).value;
      LookaheadIsFirst(inner.cursor);
    }
  }

  /**
   * A term printed at the front of the input leaves `term` in its loop with
   * the whole term as `termval`, just before `rest`.
   */
  lemma {:induction false} TermPrefix(t: Tree, c: Cursor, rest: seq<Token>) returns (d: Cursor)
    requires Valid(c) && Unconsumed(c) == Print(t, 2) + rest
    ensures Valid(d) && Unconsumed(d) == rest
    ensures Term(Grow(), c) == TermTail(Grow(), t, d)
    decreases Remaining(c), 2, t
  {
    if t.Bin? && Prec(t.op) == 2 {
      var more := [OpToken(t.op)] + (Print(t.right, 3) + rest);
      assert Unconsumed(c) == Print(t.left, 2) + more;
      var d1 := TermPrefix(t.left, c, more);
      d := TermTailStep(t.left, t.op, t.right, d1, rest);
    } else {
      assert Print(t, 2) == Print(t, 3);
      FactorRT(t, c, rest);
      d := Factor(Grow(), c).value.cursor;
    }
  }

  /** One turn of the `term` loop over an operator and a printed factor. */
  lemma {:induction false} TermTailStep(l: Tree, op: Op, r: Tree, d1: Cursor, rest: seq<Token>) returns (d: Cursor)
    requires Prec(op) == 2 && Valid(d1) && Unconsumed(d1) == [OpToken(op)] + (Print(r, 3) + rest)
    ensures Valid(d) && Unconsumed(d) == rest
    ensures TermTail(Grow(), l, d1) == TermTail(Grow(), Bin(op, l, r), d)
    decreases Remaining(d1), 1, r
  {
    LookaheadIsFirst(d1);
    var (_, c1) := AcceptEither(d1, TIMES, DIVIDE);
    FactorRT(r, c1, rest);
    d := Factor(Grow(), c1).value.cursor;
  }

  /** A term printed at the front of the input is parsed back by `term`. */
  lemma {:induction false} TermRT(t: Tree, c: Cursor, rest: seq<Token>)
    requires Valid(c) && Unconsumed(c) == Print(t, 2) + rest && Stops(rest, {TIMES, DIVIDE})
    ensures Term(Grow(), c).Ok?
    ensures Term(Grow(), c).value.value == t
    ensures Valid(Term(Grow(), c).value.cursor)
    ensures Unconsumed(Term(Grow(), c).value.cursor) == rest
    decreases Remaining(c), 3, t
  {
    var d := TermPrefix(t, c, rest);
    LookaheadIsFirst(d);
  }

  /**
   * An expression printed at the front of the input leaves `expr` in its
   * loop with the whole expression as `exprval`, just before `rest`.
   */
  lemma {:induction false} ExprPrefix(t: Tree, c: Cursor, rest: seq<Token>) returns (d: Cursor)
    requires Valid(c) && Unconsumed(c) == Print(t, 1) + rest && Stops(rest, {TIMES, DIVIDE})
    ensures Valid(d) && Unconsumed(d) == rest && !At(d, {TIMES, DIVIDE})
    ensures Expr(Grow(), c) == ExprTail(Grow(), t, d)
    decreases Remaining(c), 4, t
  {
    if t.Bin? && Prec(t.op) == 1 {
      var more := [OpToken(t.op)] + (Print(t.right, 2) + rest);
      assert Unconsumed(c) == Print(t.left, 1) + more;
      var d1 := ExprPrefix(t.left, c, more);
      d := ExprTailStep(t.left, t.op, t.right, d1, rest);
    } else {
      assert Print(t, 1) == Print(t, 2);
      TermRT(t, c, rest);
      d := Term(Grow(), c).value.cursor;
      LookaheadIsFirst(d);
    }
  }

  /** One turn of the `expr` loop over an operator and a printed term. */
  lemma {:induction false} ExprTailStep(l: Tree, op: Op, r: Tree, d1: Cursor, rest: seq<Token>) returns (d: Cursor)
    requires Prec(op) == 1 && Valid(d1) && Unconsumed(d1) == [OpToken(op)] + (Print(r, 2) + rest)
    requires Stops(rest, {TIMES, DIVIDE})
    ensures Valid(d) && Unconsumed(d) == rest && !At(d, {TIMES, DIVIDE})
    ensures !At(d1, {TIMES, DIVIDE})
    ensures ExprTail(Grow(), l, d1) == ExprTail(Grow(), Bin(op, l, r), d)
    decreases Remaining(d1), 3, r
  {
    LookaheadIsFirst(d1);
    var (_, c1) := AcceptEither(d1, PLUS, MINUS);
    TermRT(r, c1, rest);
    d := Term(Grow(), c1).value.cursor;
    LookaheadIsFirst(d);
  }

  /** An expression printed at the front of the input is parsed back by `expr`. */
  lemma {:induction false} ExprRT(t: Tree, c: Cursor, rest: seq<Token>)
    requires Valid(c) && Unconsumed(c) == Print(t, 1) + rest && Stops(rest, {PLUS, MINUS, TIMES, DIVIDE})
    ensures Expr(Grow(), c).Ok?
    ensures Expr(Grow(), c).value.value == t
    ensures Valid(Expr(Grow(), c).value.cursor)
    ensures Unconsumed(Expr(Grow(), c).value.cursor) == rest
    decreases Remaining(c), 5, t
  {
    var d := ExprPrefix(t, c, rest);
    LookaheadIsFirst(d);
  }

  /**
   * Precedence and associativity: the builder returns exactly the tree whose
   * tokens with fewest parentheses open the input, whatever follows that
   * cannot continue the expression.
   */
  lemma BuildPrint(t: Tree, rest: seq<Token>)
    requires Stops(rest, {PLUS, MINUS, TIMES, DIVIDE})
    ensures Build(Print(t, 1) + rest) == Ok(t)
  {
    ExprRT(t, Start(Print(t, 1) + rest), rest);
  }

  /** The evaluator computes the value of that tree. */
  lemma EvaluatePrint(t: Tree, rest: seq<Token>)
    requires Stops(rest, {PLUS, MINUS, TIMES, DIVIDE})
    ensures Evaluate(Print(t, 1) + rest) == Eval(t)
  {
    BuildPrint(t, rest);
    EvaluateAgrees(Print(t, 1) + rest);
  }

  /** A `+` or `-` at the end of the input finds neither a NUM nor an LPAREN after it. */
  lemma DanglingOperator(t: Tree, op: Op)
    requires op == Add || op == Sub
    ensures Build(Print(t, 1) + [OpToken(op)]) == Err(ExpectedNumberOrLParen)
    ensures Eval(t).Ok? ==> Evaluate(Print(t, 1) + [OpToken(op)]) == Err(ExpectedNumberOrLParen)
  {
    var c := Start(Print(t, 1) + [OpToken(op)]);
    var d := ExprPrefix(t, c, [OpToken(op)]);
    ExprTailDangling(Grow(), t, d, op);
    if Eval(t).Ok? {
      var d' := ExprPrefixFold(t, c, [OpToken(op)]);
      ExprTailDangling(Fold(), Eval(t).value, d', op);
    }
  }

  /** The `expr` loop facing a `+` or `-` with nothing after it finds no term. */
  lemma ExprTailDangling<R(!new)>(red: Reduction<R>, acc: R, d: Cursor, op: Op)
    requires (op == Add || op == Sub) && Valid(d) && Unconsumed(d) == [OpToken(op)]
    requires !At(d, {TIMES, DIVIDE})
    ensures ExprTail(red, acc, d) == Err(ExpectedNumberOrLParen)
  {
    LookaheadIsFirst(d);
    var (_, d1) := AcceptEither(d, PLUS, MINUS);
    LookaheadIsFirst(d1);
  }

  /**
   * The evaluator's side of `ExprPrefix`: after a printed expression whose
   * value is defined, `expr` is in its loop with that value as `exprval`.
   */
  lemma {:induction false} ExprPrefixFold(t: Tree, c: Cursor, rest: seq<Token>) returns (d: Cursor)
    requires Valid(c) && Unconsumed(c) == Print(t, 1) + rest && Stops(rest, {TIMES, DIVIDE})
    requires Eval(t).Ok?
    ensures Valid(d) && Unconsumed(d) == rest && !At(d, {TIMES, DIVIDE})
    ensures Expr(Fold(), c) == ExprTail(Fold(), Eval(t).value, d)
    decreases t
  {
    if t.Bin? && Prec(t.op) == 1 {
      var more := [OpToken(t.op)] + (Print(t.right, 2) + rest);
      assert Unconsumed(c) == Print(t.left, 1) + more;
      var d1 := ExprPrefixFold(t.left, c, more);
      d := ExprTailStepFold(Eval(t.left).value, t.op, t.right, d1, rest);
    } else {
      assert Print(t, 1) == Print(t, 2);
      TermRT(t, c, rest);
      TermAgrees(c);
      d := Term(Grow(), c).value.cursor;
    }
  }

  /** The evaluator's side of `ExprTailStep`: one turn of the `expr` loop applies the operator. */
  lemma ExprTailStepFold(v: int, op: Op, r: Tree, d1: Cursor, rest: seq<Token>) returns (d: Cursor)
    requires Prec(op) == 1 && Valid(d1) && Unconsumed(d1) == [OpToken(op)] + (Print(r, 2) + rest)
    requires Stops(rest, {TIMES, DIVIDE}) && Eval(r).Ok?
    ensures Valid(d) && Unconsumed(d) == rest && !At(d, {TIMES, DIVIDE})
    ensures !At(d1, {TIMES, DIVIDE})
    ensures Apply(op, v, Eval(r).value).Ok?
    ensures ExprTail(Fold(), v, d1) == ExprTail(Fold(), Apply(op, v, Eval(r).value).value, d)
  {
    LookaheadIsFirst(d1);
    var (_, c1) := AcceptEither(d1, PLUS, MINUS);
    TermRT(r, c1, rest);
    TermAgrees(c1);
    d := Term(Grow(), c1).value.cursor;
    LookaheadIsFirst(d);
  }

  /**
   * `factor` at an open parenthesis whose expression is followed by anything
   * but an operator or a closing parenthesis: `_expect('RPAREN')` fails. The
   * cursor may stand anywhere in the input.
   */
  lemma UnclosedFactor(t: Tree, c: Cursor, rest: seq<Token>)
    requires Valid(c) && Unconsumed(c) == [LParen] + Print(t, 1) + rest
    requires Stops(rest, {PLUS, MINUS, TIMES, DIVIDE, RPAREN})
    ensures Factor(Grow(), c) == Err(Expected(RPAREN))
    ensures Eval(t).Ok? ==> Factor(Fold(), c) == Err(Expected(RPAREN))
  {
    LookaheadIsFirst(c);
    var (_, c2) := Accept(c, LPAREN);
    assert Unconsumed(c2) == Print(t, 1) + rest;
    ExprRT(t, c2, rest);
    var inner := Expr(Grow(), c2).value;
    LookaheadIsFirst(inner.cursor);
    assert Expect(inner.cursor, RPAREN) == Err(Expected(RPAREN));
    if Eval(t).Ok? {
      ExprAgrees(c2);
      assert Expr(Fold(), c2) == Ok(Parsed(Eval(t).value, inner.cursor));
    }
  }

  /** A leading open parenthesis whose expression is followed by no `)` is never closed. */
  lemma UnclosedParen(t: Tree, rest: seq<Token>)
    requires Stops(rest, {PLUS, MINUS, TIMES, DIVIDE, RPAREN})
    ensures Build([LParen] + Print(t, 1) + rest) == Err(Expected(RPAREN))
    ensures Eval(t).Ok? ==> Evaluate([LParen] + Print(t, 1) + rest) == Err(Expected(RPAREN))
  {
    var c := Start([LParen] + Print(t, 1) + rest);
    UnclosedFactor(t, c, rest);
    assert Term(Grow(), c) == Err(Expected(RPAREN));
    if Eval(t).Ok? {
      assert Term(Fold(), c) == Err(Expected(RPAREN));
    }
  }
}

=== FILE: expr_parser_vectors.dfy ===
/**
 * The inputs the two parser classes are run on in the `__main__` blocks of
 * verilogNet_BNF.py, and a few more: left associativity, Python 2 floor
 * division, division by zero, the two syntax errors, and ignored trailing
 * tokens.
 */
module ExprParserVectors {
  import opened Results
  import opened ExprCursor
  import opened ExprParser
  import opened ExprParserFacts

  /** Both parsers on `toks`, the tokens of `t` written with the fewest parentheses. */
  lemma Printed(t: Tree, toks: seq<Token>)
    requires Print(t, 1) == toks
    ensures Build(toks) == Ok(t)
    ensures Evaluate(toks) == Eval(t)
  {
    BuildPrint(t, []);
    EvaluatePrint(t, []);
    assert Print(t, 1) + [] == Print(t, 1);
  }

  /** `2` */
  lemma Single()
    ensures Evaluate([Num(2)]) == Ok(2)
  {
    Printed(Lit(2), [Num(2)]);
  }

  /** `2 + 3` */
  lemma Sum()
    ensures Build([Num(2), Plus, Num(3)]) == Ok(Bin(Add, Lit(2), Lit(3)))
    ensures Evaluate([Num(2), Plus, Num(3)]) == Ok(5)
  {
    Printed(Bin(Add, Lit(2), Lit(3)), [Num(2), Plus, Num(3)]);
  }

  /** `2 + 3 * 4`: the product binds tighter. */
  lemma Precedence()
    ensures Build([Num(2), Plus, Num(3), Times, Num(4)]) == Ok(Bin(Add, Lit(2), Bin(Mul, Lit(3), Lit(4))))
    ensures Evaluate([Num(2), Plus, Num(3), Times, Num(4)]) == Ok(14)
  {
    Printed(Bin(Add, Lit(2), Bin(Mul, Lit(3), Lit(4))), [Num(2), Plus, Num(3), Times, Num(4)]);
  }

  /** `(3 + 4) * 5` as the right operand of `2 +` */
  lemma ParenthesisedOperand()
    ensures Print(Bin(Add, Lit(2), Bin(Mul, Bin(Add, Lit(3), Lit(4)), Lit(5))), 1)
         == [Num(2), Plus, LParen, Num(3), Plus, Num(4), RParen, Times, Num(5)]
    ensures Eval(Bin(Add, Lit(2), Bin(Mul, Bin(Add, Lit(3), Lit(4)), Lit(5)))) == Ok(37)
  {
    var inner := Bin(Mul, Bin(Add, Lit(3), Lit(4)), Lit(5));
    assert Print(inner, 2) == [LParen, Num(3), Plus, Num(4), RParen, Times, Num(5)];
    assert Eval(inner) == Ok(35);
  }

  /** `2 + (3 + 4) * 5` */
  lemma Parenthesised()
    ensures Build([Num(2), Plus, LParen, Num(3), Plus, Num(4), RParen, Times, Num(5)])
         == Ok(Bin(Add, Lit(2), Bin(Mul, Bin(Add, Lit(3), Lit(4)), Lit(5))))
    ensures Evaluate([Num(2), Plus, LParen, Num(3), Plus, Num(4), RParen, Times, Num(5)]) == Ok(37)
  {
    ParenthesisedOperand();
    Printed(Bin(Add, Lit(2), Bin(Mul, Bin(Add, Lit(3), Lit(4)), Lit(5))),
            [Num(2), Plus, LParen, Num(3), Plus, Num(4), RParen, Times, Num(5)]);
  }

  /** `2 + 3 + 4` groups to the left. */
  lemma LeftAssociative()
    ensures Build([Num(2), Plus, Num(3), Plus, Num(4)]) == Ok(Bin(Add, Bin(Add, Lit(2), Lit(3)), Lit(4)))
  {
    Printed(Bin(Add, Bin(Add, Lit(2), Lit(3)), Lit(4)), [Num(2), Plus, Num(3), Plus, Num(4)]);
  }

  /** `8 - 3 - 2` is `(8 - 3) - 2`. */
  lemma LeftAssociativeMinus()
    ensures Evaluate([Num(8), Minus, Num(3), Minus, Num(2)]) == Ok(3)
  {
    Printed(Bin(Sub, Bin(Sub, Lit(8), Lit(3)), Lit(2)), [Num(8), Minus, Num(3), Minus, Num(2)]);
  }

  /** `7 / (0 - 2)` rounds towards negative infinity. */
  lemma FloorDivision()
    ensures Evaluate([Num(7), Divide, LParen, Num(0), Minus, Num(2), RParen]) == Ok(-4)
  {
    assert FloorDiv(7, -2) == -4;
    Printed(Bin(Div, Lit(7), Bin(Sub, Lit(0), Lit(2))), [Num(7), Divide, LParen, Num(0), Minus, Num(2), RParen]);
  }

  /** `1 / 0` raises, while the builder still returns a tree. */
  lemma DivisionByZero()
    ensures Build([Num(1), Divide, Num(0)]) == Ok(Bin(Div, Lit(1), Lit(0)))
    ensures Evaluate([Num(1), Divide, Num(0)]) == Err(ZeroDivision)
  {
    Printed(Bin(Div, Lit(1), Lit(0)), [Num(1), Divide, Num(0)]);
  }

  /** `2 +` */
  lemma MissingOperand()
    ensures Build([Num(2), Plus]) == Err(ExpectedNumberOrLParen)
    ensures Evaluate([Num(2), Plus]) == Err(ExpectedNumberOrLParen)
  {
    DanglingOperator(Lit(2), Add);
    EvaluateAgrees([Num(2), Plus]);
  }

  /** `(2 + 3` */
  lemma MissingRParen()
    ensures Build([LParen, Num(2), Plus, Num(3)]) == Err(Expected(RPAREN))
    ensures Evaluate([LParen, Num(2), Plus, Num(3)]) == Err(Expected(RPAREN))
  {
    var t := Bin(Add, Lit(2), Lit(3));
    assert [LParen] + Print(t, 1) + [] == [LParen, Num(2), Plus, Num(3)];
    assert Eval(t) == Ok(5);
    UnclosedParen(t, []);
  }

  /** `(2 3`: a NUM where `)` belongs. */
  lemma NumberInsteadOfRParen()
    ensures Build([LParen, Num(2), Num(3)]) == Err(Expected(RPAREN))
    ensures Evaluate([LParen, Num(2), Num(3)]) == Err(Expected(RPAREN))
  {
    assert [LParen] + Print(Lit(2), 1) + [Num(3)] == [LParen, Num(2), Num(3)];
    UnclosedParen(Lit(2), [Num(3)]);
  }

  /** `2 * (3`: the parenthesis opened as the right operand of `*` is never closed. */
  lemma UnclosedAfterOperator()
    ensures Build([Num(2), Times, LParen, Num(3)]) == Err(Expected(RPAREN))
    ensures Evaluate([Num(2), Times, LParen, Num(3)]) == Err(Expected(RPAREN))
  {
    var c := Start([Num(2), Times, LParen, Num(3)]);
    LookaheadIsFirst(c);
    var (_, c1) := Accept(c, NUM);
    LookaheadIsFirst(c1);
    var (_, c2) := AcceptEither(c1, TIMES, DIVIDE);
    assert Unconsumed(c2) == [LParen] + Print(Lit(3), 1) + [];
    UnclosedFactor(Lit(3), c2, []);
    assert TermTail(Grow(), Lit(2), c1) == Err(Expected(RPAREN));
    assert TermTail(Fold(), 2, c1) == Err(Expected(RPAREN));
  }

  /** `2 3`: the second NUM is left unread. */
  lemma TrailingIgnored()
    ensures Evaluate([Num(2), Num(3)]) == Ok(2)
  {
    EvaluatePrint(Lit(2), [Num(3)]);
  }

  lemma EmptyInput()
    ensures Build([]) == Err(ExpectedNumberOrLParen)
    ensures Evaluate([]) == Err(ExpectedNumberOrLParen)
  {
  }
}

=== FILE: netlist_lexer.dfy ===
/**
 * The netlist tokenizer `gen_token` of verilogNet_BNF.py.
 *
 * The source joins twelve named regular expressions into one alternation and
 * scans the input with `re.finditer`: at every position the first rule (in
 * list order) that matches wins, with its greedy match.  Here every rule has
 * a hand-written matcher whose contract is stated against `Lexeme`, the
 * language of the rule's pattern; for each of these patterns the greedy match
 * is the longest prefix in that language.
 *
 * Character classes follow Python 2 `re` without flags: `\w` is
 * [A-Za-z0-9_], `\d` is [0-9], `.` is any character but a newline.
 */
module NetlistLexer {
  import opened Results

  /** The rules of `token_regexp_list`, in list order. */
  datatype Rule =
    | Id | LBrack | RBrack | Dot | Commar | Semi | Number
    | Newline | Skip | CommentL | CommentS | Mismatch

  const Rules: seq<Rule> :=
    [Id, LBrack, RBrack, Dot, Commar, Semi, Number, Newline, Skip, CommentL, CommentS, Mismatch]

  /** Position of a rule in `Rules`. */
  function RuleIndex(r: Rule): (k: nat)
    ensures k < |Rules| && Rules[k] == r
  {
    match r
    case Id => 0
    case LBrack => 1
    case RBrack => 2
    case Dot => 3
    case Commar => 4
    case Semi => 5
    case Number => 6
    case Newline => 7
    case Skip => 8
    case CommentL => 9
    case CommentS => 10
    case Mismatch => 11
  }

  /** The group name of a rule, which is the token type the source yields. */
  function RuleName(r: Rule): string {
    match r
    case Id => "ID"
    case LBrack => "L_BRACK"
    case RBrack => "R_BRACK"
    case Dot => "DOT"
    case Commar => "COMMAR"
    case Semi => "SEMI"
    case Number => "NUMBER"
    case Newline => "NEWLINE"
    case Skip => "SKIP"
    case CommentL => "COMMENT_L"
    case CommentS => "COMMENT_S"
    case Mismatch => "MISMATCH"
  }

  /** `keywork_list`: identifiers with this text are promoted to keywords. */
  const Keywords: seq<string> := ["module", "input", "output", "inout", "endmodule", "assign", "wire"]

  predicate IsLetter(c: char) { 'a' <= c <= 'z' || 'A' <= c <= 'Z' }
  predicate IsDigit(c: char) { '0' <= c <= '9' }
  predicate IsWordChar(c: char) { IsLetter(c) || IsDigit(c) || c == '_' }
  predicate IsBlank(c: char) { c == ' ' || c == '\t' }
  predicate IsNotNewline(c: char) { c != '\n' }

  /** The character matched by a one-character rule. */
  function PunctChar(r: Rule): char {
    match r
    case LBrack => '('
    case RBrack => ')'
    case Dot => '.'
    case Commar => ','
    case Semi => ';'
    case Newline => '\n'
    case _ => '\0'
  }

  predicate IsPunct(r: Rule) {
    r == LBrack || r == RBrack || r == Dot || r == Commar || r == Semi || r == Newline
  }

  /** The language of `\d(\.\d+)*`: a digit, then groups of a dot and one or more digits. */
  ghost predicate IsNumberLexeme(t: string) {
    && |t| >= 1
    && IsDigit(t[0])
    && IsDigit(t[|t| - 1])
    && (|t| > 1 ==> t[1] == '.')
    && (forall k :: 0 <= k < |t| ==> IsDigit(t[k]) || t[k] == '.')
    && (forall k :: 0 <= k < |t| - 1 ==> t[k] == '.' ==> t[k + 1] != '.')
  }

  /** The language of each rule's pattern. */
  ghost predicate Lexeme(r: Rule, t: string) {
    match r
    case Id => |t| >= 1 && IsLetter(t[0]) && forall k :: 1 <= k < |t| ==> IsWordChar(t[k])
    case Number => IsNumberLexeme(t)
    case Skip => |t| >= 1 && forall k :: 0 <= k < |t| ==> IsBlank(t[k])
    case CommentL =>
      |t| >= 4 && t[0] == '/' && t[1] == '*' && t[|t| - 2] == '*' && t[|t| - 1] == '/'
    case CommentS =>
      |t| >= 2 && t[0] == '/' && t[1] == '/' && forall k :: 2 <= k < |t| ==> IsNotNewline(t[k])
    case Mismatch => |t| == 1 && IsNotNewline(t[0])
    case _ => t == [PunctChar(r)]
  }

  /** `s[i..e]` is what the greedy pattern of `r` matches at `i`: the longest lexeme there. */
  ghost predicate LongestMatch(r: Rule, s: string, i: nat, e: nat) {
    && i < e <= |s|
    && Lexeme(r, s[i..e])
    && forall e' :: e < e' <= |s| ==> !Lexeme(r, s[i..e'])
  }

  /** The pattern of `r` matches nothing at `i`. */
  ghost predicate NoMatch(r: Rule, s: string, i: nat) {
    i <= |s| && forall e :: i < e <= |s| ==> !Lexeme(r, s[i..e])
  }

  /** End of the longest run of characters satisfying `p` from `j` on. */
  function RunEnd(s: string, j: nat, p: char -> bool): (e: nat)
    requires j <= |s|
    ensures j <= e <= |s|
    ensures forall k :: j <= k < e ==> p(s[k])
    ensures e == |s| || !p(s[e])
    decreases |s| - j
  {
    if j < |s| && p(s[j]) then RunEnd(s, j + 1, p) else j
  }

  function MatchPunct(r: Rule, s: string, i: nat): (e: Option<nat>)
    requires IsPunct(r) && i < |s|
    ensures e.Some? ==> LongestMatch(r, s, i, e.value)
    ensures e.None? ==> NoMatch(r, s, i)
  {
    PunctLemma(r, s, i);
    if s[i] == PunctChar(r) then Some(i + 1) else None
  }

  lemma PunctLemma(r: Rule, s: string, i: nat)
    requires IsPunct(r) && i < |s|
    ensures s[i] == PunctChar(r) ==> LongestMatch(r, s, i, i + 1)
    ensures s[i] != PunctChar(r) ==> NoMatch(r, s, i)
  {
    assert s[i..i + 1] == [s[i]];
    forall e | i < e <= |s|
      ensures Lexeme(r, s[i..e]) ==> e == i + 1 && s[i] == PunctChar(r)
    {
      assert s[i..e][0] == s[i];
    }
  }

  function MatchMismatch(s: string, i: nat): (e: Option<nat>)
    requires i < |s|
    ensures e.Some? ==> LongestMatch(Mismatch, s, i, e.value)
    ensures e.None? ==> NoMatch(Mismatch, s, i)
  {
    MismatchLemma(s, i);
    if IsNotNewline(s[i]) then Some(i + 1) else None
  }

  lemma MismatchLemma(s: string, i: nat)
    requires i < |s|
    ensures IsNotNewline(s[i]) ==> LongestMatch(Mismatch, s, i, i + 1)
    ensures !IsNotNewline(s[i]) ==> NoMatch(Mismatch, s, i)
  {
    assert s[i..i + 1] == [s[i]];
    forall e | i < e <= |s|
      ensures Lexeme(Mismatch, s[i..e]) ==> e == i + 1 && IsNotNewline(s[i])
    {
      assert s[i..e][0] == s[i];
    }
  }

  /** `[a-zA-Z](\w)*`: a letter and every word character after it. */
  function MatchId(s: string, i: nat): (e: Option<nat>)
    requires i < |s|
    ensures e.Some? ==> LongestMatch(Id, s, i, e.value)
    ensures e.None? ==> NoMatch(Id, s, i)
  {
    if IsLetter(s[i]) then
      var e := RunEnd(s, i + 1, IsWordChar);
      RunLemma(Id, s, i, i + 1, e, IsWordChar);
      Some(e)
    else
      assert NoMatch(Id, s, i) by {
        forall e | i < e <= |s| ensures !Lexeme(Id, s[i..e]) {
          assert s[i..e][0] == s[i];
        }
      }
      None
  }

  /** `[ \t]+`: every blank from here on. */
  function MatchSkip(s: string, i: nat): (e: Option<nat>)
    requires i < |s|
    ensures e.Some? ==> LongestMatch(Skip, s, i, e.value)
    ensures e.None? ==> NoMatch(Skip, s, i)
  {
    if IsBlank(s[i]) then
      var e := RunEnd(s, i + 1, IsBlank);
      RunLemma(Skip, s, i, i + 1, e, IsBlank);
      Some(e)
    else
      assert NoMatch(Skip, s, i) by {
        forall e | i < e <= |s| ensures !Lexeme(Skip, s[i..e]) {
          assert s[i..e][0] == s[i];
        }
      }
      None
  }

  /** `\/\/.*`: two slashes and the rest of the line. */
  function MatchCommentS(s: string, i: nat): (e: Option<nat>)
    requires i < |s|
    ensures e.Some? ==> LongestMatch(CommentS, s, i, e.value)
    ensures e.None? ==> NoMatch(CommentS, s, i)
  {
    if i + 1 < |s| && s[i] == '/' && s[i + 1] == '/' then
      var e := RunEnd(s, i + 2, IsNotNewline);
      RunLemma(CommentS, s, i, i + 2, e, IsNotNewline);
      Some(e)
    else
      assert NoMatch(CommentS, s, i) by {
        forall e | i < e <= |s| ensures !Lexeme(CommentS, s[i..e]) {
          assert s[i..e][0] == s[i];
          if i + 2 <= e {
            assert s[i..e][1] == s[i + 1];
          }
        }
      }
      None
  }

  /**
   * The rules Id, Skip and CommentS are a fixed prefix `s[i..j]` followed by
   * a run of characters satisfying `p`; the run to `e` is their longest lexeme.
   */
  lemma RunLemma(r: Rule, s: string, i: nat, j: nat, e: nat, p: char -> bool)
    requires i < j <= e <= |s|
    requires r == Id || r == Skip || r == CommentS
    requires r == Id ==> j == i + 1 && IsLetter(s[i]) && p == IsWordChar
    requires r == Skip ==> j == i + 1 && IsBlank(s[i]) && p == IsBlank
    requires r == CommentS ==> j == i + 2 && s[i] == '/' && s[i + 1] == '/' && p == IsNotNewline
    requires forall k :: j <= k < e ==> p(s[k])
    requires e == |s| || !p(s[e])
    ensures LongestMatch(r, s, i, e)
  {
    var t := s[i..e];
    forall k | j - i <= k < |t| ensures p(t[k]) {
      assert t[k] == s[i + k];
    }
    assert Lexeme(r, t);
    forall e' | e < e' <= |s| ensures !Lexeme(r, s[i..e']) {
      assert s[i..e'][e - i] == s[e];
    }
  }

  /**
   * `\d(\.\d+)*` after the digits up to `j`: take another `.digits` group while
   * a dot followed by a digit comes next.
   */
  function NumberEnd(s: string, i: nat, j: nat): (e: nat)
    requires i < j <= |s|
    requires IsNumberLexeme(s[i..j])
    requires j == i + 1 || j == |s| || !IsDigit(s[j])
    ensures LongestMatch(Number, s, i, e)
    decreases |s| - j
  {
    if j + 1 < |s| && s[j] == '.' && IsDigit(s[j + 1]) then
      var j' := RunEnd(s, j + 1, IsDigit);
      NumberGroupLemma(s, i, j, j');
      NumberEnd(s, i, j')
    else
      NumberStopLemma(s, i, j);
      j
  }

  lemma NumberGroupLemma(s: string, i: nat, j: nat, j': nat)
    requires i < j && j + 1 < j' <= |s|
    requires IsNumberLexeme(s[i..j])
    requires s[j] == '.'
    requires forall k :: j + 1 <= k < j' ==> IsDigit(s[k])
    ensures IsNumberLexeme(s[i..j'])
  {
    var t, u := s[i..j], s[i..j'];
    assert forall k :: 0 <= k < |t| ==> u[k] == t[k];
    assert u[j - i] == '.';
    forall k | j - i + 1 <= k < |u| ensures IsDigit(u[k]) {
      assert u[k] == s[i + k];
    }
  }

  lemma NumberStopLemma(s: string, i: nat, j: nat)
    requires i < j <= |s|
    requires IsNumberLexeme(s[i..j])
    requires j == i + 1 || j == |s| || !IsDigit(s[j])
    requires !(j + 1 < |s| && s[j] == '.' && IsDigit(s[j + 1]))
    ensures LongestMatch(Number, s, i, j)
  {
    forall e' | j < e' <= |s| ensures !IsNumberLexeme(s[i..e']) {
      var u := s[i..e'];
      assert u[j - i] == s[j];
      if j + 1 < e' {
        assert u[j - i + 1] == s[j + 1];
      }
    }
  }

  function MatchNumber(s: string, i: nat): (e: Option<nat>)
    requires i < |s|
    ensures e.Some? ==> LongestMatch(Number, s, i, e.value)
    ensures e.None? ==> NoMatch(Number, s, i)
  {
    if IsDigit(s[i]) then
      assert s[i..i + 1] == [s[i]];
      Some(NumberEnd(s, i, i + 1))
    else
      assert NoMatch(Number, s, i) by {
        forall e | i < e <= |s| ensures !Lexeme(Number, s[i..e]) {
          assert s[i..e][0] == s[i];
        }
      }
      None
  }

  /** A closing star-slash starts at `k`. */
  predicate ClosesAt(s: string, k: nat) {
    k + 2 <= |s| && s[k] == '*' && s[k + 1] == '/'
  }

  /**
   * The last closing star-slash starting in `[lo, hi)`, searched from the right
   * as greedy backtracking does.
   */
  function LastClose(s: string, lo: nat, hi: nat): (r: Option<nat>)
    requires lo <= hi
    ensures r.Some? ==> lo <= r.value < hi && ClosesAt(s, r.value)
    ensures r.Some? ==> forall k :: r.value < k < hi ==> !ClosesAt(s, k)
    ensures r.None? ==> forall k :: lo <= k < hi ==> !ClosesAt(s, k)
    decreases hi - lo
  {
    if lo == hi then None
    else if ClosesAt(s, hi - 1) then Some(hi - 1)
    else LastClose(s, lo, hi - 1)
  }

  /** `/\*(.|\n)*\*\/`: from slash-star greedily to the last star-slash of the input. */
  function MatchCommentL(s: string, i: nat): (e: Option<nat>)
    requires i < |s|
    ensures e.Some? ==> LongestMatch(CommentL, s, i, e.value)
    ensures e.None? ==> NoMatch(CommentL, s, i)
  {
    if i + 1 < |s| && s[i] == '/' && s[i + 1] == '*' then
      var close := LastClose(s, i + 2, |s|);
      CommentLLemma(s, i, close);
      if close.Some? then Some(close.value + 2) else None
    else
      assert NoMatch(CommentL, s, i) by {
        forall e | i < e <= |s| ensures !Lexeme(CommentL, s[i..e]) {
          assert s[i..e][0] == s[i];
          if i + 2 <= e {
            assert s[i..e][1] == s[i + 1];
          }
        }
      }
      None
  }

  lemma CommentLLemma(s: string, i: nat, close: Option<nat>)
    requires i + 1 < |s| && s[i] == '/' && s[i + 1] == '*'
    requires close == LastClose(s, i + 2, |s|)
    ensures close.Some? ==> LongestMatch(CommentL, s, i, close.value + 2)
    ensures close.None? ==> NoMatch(CommentL, s, i)
  {
    forall e | i < e <= |s| && Lexeme(CommentL, s[i..e])
      ensures ClosesAt(s, e - 2) && i + 2 <= e - 2
    {
      var u := s[i..e];
      assert u[|u| - 2] == s[e - 2] && u[|u| - 1] == s[e - 1];
    }
    if close.Some? {
      var e := close.value + 2;
      var u := s[i..e];
      assert u[0] == s[i] && u[1] == s[i + 1];
      assert u[|u| - 2] == s[e - 2] && u[|u| - 1] == s[e - 1];
    }
  }

  /** The matcher of each rule. */
  function MatchRule(r: Rule, s: string, i: nat): (e: Option<nat>)
    requires i < |s|
    ensures e.Some? ==> LongestMatch(r, s, i, e.value)
    ensures e.None? ==> NoMatch(r, s, i)
  {
    match r
    case Id => MatchId(s, i)
    case Number => MatchNumber(s, i)
    case Skip => MatchSkip(s, i)
    case CommentL => MatchCommentL(s, i)
    case CommentS => MatchCommentS(s, i)
    case Mismatch => MatchMismatch(s, i)
    case _ => MatchPunct(r, s, i)
  }

  /** The index of the first rule from `k` on that matches at `i`. */
  function Pick(s: string, i: nat, k: nat): (j: nat)
    requires i < |s| && k < |Rules|
    requires k <= RuleIndex(Newline) || s[i] != '\n'
    ensures k <= j < |Rules|
    ensures MatchRule(Rules[j], s, i).Some?
    ensures forall j' :: k <= j' < j ==> MatchRule(Rules[j'], s, i).None?
    decreases |Rules| - k
  {
    if k == |Rules| - 1 || MatchRule(Rules[k], s, i).Some? then k
    else Pick(s, i, k + 1)
  }

  /** One match of the scan: the winning rule and the text `s[start..end]`. */
  datatype Match = Match(rule: Rule, start: nat, end: nat)

  /**
   * The match `re.finditer` reports at `i`: the first rule in list order that
   * matches, with its greedy match.  Some rule always matches, because
   * NEWLINE takes a newline and MISMATCH any other character.
   */
  function FirstMatch(s: string, i: nat): (m: Match)
    requires i < |s|
    ensures m.start == i && LongestMatch(m.rule, s, i, m.end)
    ensures forall r :: RuleIndex(r) < RuleIndex(m.rule) ==> NoMatch(r, s, i)
  {
    var j := Pick(s, i, 0);
    var e := MatchRule(Rules[j], s, i);
    assert RuleIndex(Rules[j]) == j by { RulesAreIndexed(); }
    assert forall r :: RuleIndex(r) < j ==> MatchRule(Rules[RuleIndex(r)], s, i).None?;
    Match(Rules[j], i, e.value)
  }

  lemma RulesAreIndexed()
    ensures forall j :: 0 <= j < |Rules| ==> RuleIndex(Rules[j]) == j
  {
  }

  /** The ordered matches `re.finditer` produces from `i` to the end of `s`. */
  function Matches(s: string, i: nat): (ms: seq<Match>)
    requires i <= |s|
    ensures Tiles(ms, i, |s|)
    ensures forall m :: m in ms ==> m.start < |s| && m == FirstMatch(s, m.start)
    decreases |s| - i
  {
    if i == |s| then []
    else
      var m := FirstMatch(s, i);
      [m] + Matches(s, m.end)
  }

  /** `ms` are non-empty matches laid end to end from `lo` to `hi`. */
  ghost predicate Tiles(ms: seq<Match>, lo: nat, hi: nat)
    decreases |ms|
  {
    if |ms| == 0 then lo == hi
    else ms[0].start == lo < ms[0].end && Tiles(ms[1..], ms[0].end, hi)
  }

  /** A yielded token: type, matched text, line number and column number. */
  datatype Token = Token(kind: string, text: string, line: nat, column: int)

  /** The type names of the rules whose matches are dropped. */
  const SkippedKinds: seq<string> := ["SKIP", "COMMENT_L", "COMMENT_S", "NEWLINE", "MISMATCH"]

  /** Rules whose matches are yielded: every rule except the ones whose type names are skipped. */
  predicate Yielded(r: Rule)
  {
    !(r == Skip || r == CommentL || r == CommentS || r == Newline || r == Mismatch)
  }

  /** The token type: an identifier spelled like a keyword takes the keyword as its type. */
  function KindOf(r: Rule, text: string): (k: string)
  {
    if r == Id && text in Keywords then text else RuleName(r)
  }

  /**
   * The token `gen_token` yields for match `m` when the line counter is `line`
   * and `line_column_start` is `lineStart`: its type, its text, and its offset
   * from `lineStart` plus 1 as its column.
   */
  function TokenOf(s: string, m: Match, line: nat, lineStart: nat): Token
    requires m.start <= m.end <= |s|
  {
    var text := s[m.start..m.end];
    Token(KindOf(m.rule, text), text, line, m.start - lineStart + 1)
  }

  /**
   * The loop of `gen_token` from offset `i`, with `line` the line number and
   * `lineStart` the value of `line_column_start`.
   */
  function GenTokenFrom(s: string, i: nat, line: nat, lineStart: nat): (toks: seq<Token>)
    requires i <= |s|
    ensures |toks| <= |s| - i
    ensures forall k :: 0 <= k < |toks| ==> line <= toks[k].line
    decreases |s| - i
  {
    if i == |s| then []
    else
      var m := FirstMatch(s, i);
      if m.rule == CommentL || m.rule == CommentS || m.rule == Skip then
        GenTokenFrom(s, m.end, line, lineStart)
      else if m.rule == Newline then
        GenTokenFrom(s, m.end, line + 1, m.end)
      else if m.rule == Mismatch then
        GenTokenFrom(s, m.end, line, lineStart)
      else
        [TokenOf(s, m, line, lineStart)] + GenTokenFrom(s, m.end, line, lineStart)
  }

  /** `gen_token(token_regexp_list, s)`, with `line_num` and `line_column_start` both 1. */
  function GenToken(s: string): (toks: seq<Token>)
    ensures |toks| <= |s|
    ensures forall k :: 0 <= k < |toks| ==> toks[k].line >= 1
  {
    GenTokenFrom(s, 0, 1, 1)
  }
}

=== FILE: netlist_lexer_facts.dfy ===
/**
 * What `gen_token` promises, stated against an independent reading of its
 * output: the ordered matches of the scan, of which the yielded ones become
 * tokens whose line and column are computed by counting the NEWLINE matches
 * before them.
 */
module NetlistLexerFacts {
  import opened Results
  import opened NetlistLexer

  /** Number of NEWLINE matches among `ms[..k]`. */
  function NewlinesBefore(ms: seq<Match>, k: nat): nat
    requires k <= |ms|
  {
    if k == 0 then 0
    else NewlinesBefore(ms, k - 1) + (if ms[k - 1].rule == Newline then 1 else 0)
  }

  /** `line_column_start` after the matches `ms[..k]`: the end of the last NEWLINE match, or 1. */
  function LineStartBefore(ms: seq<Match>, k: nat): nat
    requires k <= |ms|
  {
    if k == 0 then 1
    else if ms[k - 1].rule == Newline then ms[k - 1].end
    else LineStartBefore(ms, k - 1)
  }

  ghost predicate InBounds(s: string, ms: seq<Match>) {
    forall k :: 0 <= k < |ms| ==> ms[k].start <= ms[k].end <= |s|
  }

  /**
   * The token match `ms[k]` stands for: its text, the type that text gets,
   * line 1 plus the NEWLINE matches before it, and its offset from the start
   * of its line.
   */
  function TokenAt(s: string, ms: seq<Match>, k: nat): Token
    requires k < |ms| && ms[k].start <= ms[k].end <= |s|
  {
    TokenOf(s, ms[k], 1 + NewlinesBefore(ms, k), LineStartBefore(ms, k))
  }

  /** The tokens of the yielded matches among `ms[k..]`, in order. */
  function Render(s: string, ms: seq<Match>, k: nat): seq<Token>
    requires k <= |ms| && InBounds(s, ms)
    decreases |ms| - k
  {
    if k == |ms| then []
    else (if Yielded(ms[k].rule) then [TokenAt(s, ms, k)] else []) + Render(s, ms, k + 1)
  }

  /** The matched texts of `ms`, joined. */
  function Concat(s: string, ms: seq<Match>): string
    requires InBounds(s, ms)
  {
    if |ms| == 0 then [] else s[ms[0].start..ms[0].end] + Concat(s, ms[1..])
  }

  /** Matches laid end to end stay inside their span and in order. */
  lemma {:induction false} TilesOrdered(ms: seq<Match>, lo: nat, hi: nat)
    requires Tiles(ms, lo, hi)
    ensures lo <= hi
    ensures forall k :: 0 <= k < |ms| ==> lo <= ms[k].start < ms[k].end <= hi
    ensures forall q, k :: 0 <= q < k < |ms| ==> ms[q].end <= ms[k].start
    ensures forall k :: 0 <= k < |ms| - 1 ==> ms[k].end == ms[k + 1].start
    decreases |ms|
  {
    if |ms| > 0 {
      var tail := ms[1..];
      TilesOrdered(tail, ms[0].end, hi);
      assert forall k :: 1 <= k < |ms| ==> ms[k] == tail[k - 1];
    }
  }

  /** The scan covers the input: its matched pieces join back to `s[i..]`. */
  lemma MatchesCoverInput(s: string, i: nat)
    requires i <= |s|
    ensures InBounds(s, Matches(s, i))
    ensures Concat(s, Matches(s, i)) == s[i..]
  {
    ConcatTiles(s, Matches(s, i), i, |s|);
  }

  lemma {:induction false} ConcatTiles(s: string, ms: seq<Match>, lo: nat, hi: nat)
    requires Tiles(ms, lo, hi) && hi <= |s|
    ensures lo <= hi && InBounds(s, ms)
    ensures Concat(s, ms) == s[lo..hi]
    decreases |ms|
  {
    TilesOrdered(ms, lo, hi);
    if |ms| > 0 {
      var tail := ms[1..];
      ConcatTiles(s, tail, ms[0].end, hi);
      assert s[lo..hi] == s[lo..ms[0].end] + s[ms[0].end..hi];
    }
  }

  /** No token starts before the start of its line, so columns are never negative. */
  lemma {:induction false} LineStartBound(ms: seq<Match>, lo: nat, hi: nat, k: nat)
    requires Tiles(ms, lo, hi) && k < |ms|
    ensures LineStartBefore(ms, k) <= ms[k].start + 1
    decreases k
  {
    if k > 0 {
      TilesOrdered(ms, lo, hi);
      LineStartBound(ms, lo, hi, k - 1);
    }
  }

  lemma MatchesInBounds(s: string, i: nat)
    requires i <= |s|
    ensures InBounds(s, Matches(s, i))
  {
  }

  /** The line counters after one more match. */
  function NextLine(m: Match, line: nat): nat {
    if m.rule == Newline then line + 1 else line
  }

  function NextLineStart(m: Match, lineStart: nat): nat {
    if m.rule == Newline then m.end else lineStart
  }

  /** What `gen_token` yields for match `m` on line `line` starting at `lineStart`. */
  function Yield(s: string, m: Match, line: nat, lineStart: nat): seq<Token>
    requires m.start <= m.end <= |s|
  {
    if Yielded(m.rule)
    then [TokenOf(s, m, line, lineStart)]
    else []
  }

  /** One turn of the loop of `gen_token`: what the match at `i` contributes. */
  lemma GenTokenFromStep(s: string, i: nat, line: nat, lineStart: nat)
    requires i < |s|
    ensures var m := FirstMatch(s, i);
      GenTokenFrom(s, i, line, lineStart)
      == Yield(s, m, line, lineStart)
         + GenTokenFrom(s, m.end, NextLine(m, line), NextLineStart(m, lineStart))
  {
    var m := FirstMatch(s, i);
    if !Yielded(m.rule) {
      assert [] + GenTokenFrom(s, m.end, NextLine(m, line), NextLineStart(m, lineStart))
          == GenTokenFrom(s, m.end, NextLine(m, line), NextLineStart(m, lineStart));
    }
  }

  /** The scan at `i` is the first match there, then the scan from its end. */
  lemma MatchesStep(s: string, i: nat)
    requires i < |s|
    ensures Matches(s, i) == [FirstMatch(s, i)] + Matches(s, FirstMatch(s, i).end)
  {
  }

  /** What the rendering gives for the match `ms[k]`. */
  lemma RenderHead(s: string, ms: seq<Match>, k: nat, line: nat, lineStart: nat)
    requires k < |ms| && InBounds(s, ms)
    requires line == 1 + NewlinesBefore(ms, k) && lineStart == LineStartBefore(ms, k)
    ensures Render(s, ms, k) == Yield(s, ms[k], line, lineStart) + Render(s, ms, k + 1)
  {
    var m := ms[k];
    assert TokenAt(s, ms, k)
      == Token(KindOf(m.rule, s[m.start..m.end]), s[m.start..m.end], line, m.start - lineStart + 1);
  }

  /**
   * The loop of `gen_token` from offset `i`, where the scan's matches from
   * `i` on are `ms[k..]` and the line counters are those `ms[..k]` leave,
   * yields exactly the rendering of `ms[k..]`.
   */
  lemma {:induction false} GenTokenFromIsRender(s: string, ms: seq<Match>, k: nat, i: nat, line: nat, lineStart: nat)
    requires i <= |s| && k <= |ms| && InBounds(s, ms)
    requires ms[k..] == Matches(s, i)
    requires line == 1 + NewlinesBefore(ms, k) && lineStart == LineStartBefore(ms, k)
    ensures GenTokenFrom(s, i, line, lineStart) == Render(s, ms, k)
    decreases |s| - i
  {
    if i < |s| {
      var m := FirstMatch(s, i);
      MatchesStep(s, i);
      assert ms[k] == ms[k..][0] == m;
      assert ms[k + 1..] == ms[k..][1..] == Matches(s, m.end);
      RenderHead(s, ms, k, line, lineStart);
      GenTokenFromIsRender(s, ms, k + 1, m.end, NextLine(m, line), NextLineStart(m, lineStart));
      GenTokenFromStep(s, i, line, lineStart);
    }
  }

  /**
   * `gen_token` yields, in input order, one token per match of a yielded rule,
   * with the matched text, the type that text gets, line 1 plus the NEWLINE
   * matches before it and column `start - line_column_start + 1`.
   */
  lemma GenTokenIsRender(s: string)
    ensures InBounds(s, Matches(s, 0))
    ensures GenToken(s) == Render(s, Matches(s, 0), 0)
  {
    var ms := Matches(s, 0);
    MatchesInBounds(s, 0);
    assert ms[0..] == ms;
    GenTokenFromIsRender(s, ms, 0, 0, 1, 1);
  }

  lemma {:induction false} RenderMembers(s: string, ms: seq<Match>, k: nat)
    requires k <= |ms| && InBounds(s, ms)
    ensures forall t :: t in Render(s, ms, k) ==>
      exists j :: k <= j < |ms| && Yielded(ms[j].rule) && t == TokenAt(s, ms, j)
    decreases |ms| - k
  {
    if k < |ms| {
      RenderMembers(s, ms, k + 1);
    }
  }

  /**
   * Every token is a lexeme of a yielded rule, typed by that rule (or by the
   * keyword it spells), on a line from 1 and at a column from 0.
   */
  lemma TokensAreYieldedLexemes(s: string)
    ensures forall t :: t in GenToken(s) ==>
      && t.line >= 1
      && t.column >= 0
      && exists r :: Yielded(r) && Lexeme(r, t.text) && t.kind == KindOf(r, t.text)
  {
    var ms := Matches(s, 0);
    GenTokenIsRender(s);
    RenderMembers(s, ms, 0);
    forall t | t in GenToken(s)
      ensures t.line >= 1 && t.column >= 0
      ensures exists r :: Yielded(r) && Lexeme(r, t.text) && t.kind == KindOf(r, t.text)
    {
      var j :| 0 <= j < |ms| && Yielded(ms[j].rule) && t == TokenAt(s, ms, j);
      TokenAtFacts(s, j);
    }
  }

  /** The token of the `j`-th match of the scan of `s`. */
  lemma TokenAtFacts(s: string, j: nat)
    requires InBounds(s, Matches(s, 0)) && j < |Matches(s, 0)|
    ensures var t := TokenAt(s, Matches(s, 0), j);
      && t.line >= 1
      && t.column >= 0
      && Lexeme(Matches(s, 0)[j].rule, t.text)
      && t.kind == KindOf(Matches(s, 0)[j].rule, t.text)
  {
    var ms := Matches(s, 0);
    var m := ms[j];
    assert m == FirstMatch(s, m.start);
    LineStartBound(ms, 0, |s|, j);
  }

  lemma KeywordsAreIdentifiers(r: Rule, w: string)
    requires w in Keywords && Lexeme(r, w)
    ensures r == Id
  {
    assert |w| >= 4 && IsLetter(w[0]);
  }

  /** The type of one lexeme is a keyword exactly when its text is that keyword. */
  lemma KeywordKind(r: Rule, w: string)
    requires Lexeme(r, w)
    ensures KindOf(r, w) in Keywords <==> w in Keywords
    ensures w in Keywords ==> KindOf(r, w) == w
  {
    if w in Keywords {
      KeywordsAreIdentifiers(r, w);
    } else {
      assert KindOf(r, w) == RuleName(r);
    }
  }

  /**
   * Keyword promotion: a token has a keyword as its type exactly when its
   * text is that keyword; no other token is typed by a keyword.
   */
  lemma KeywordTokens(s: string)
    ensures forall t :: t in GenToken(s) ==>
      && (t.kind in Keywords <==> t.text in Keywords)
      && (t.text in Keywords ==> t.kind == t.text)
  {
    TokensAreYieldedLexemes(s);
    forall t | t in GenToken(s)
      ensures (t.kind in Keywords <==> t.text in Keywords) && (t.text in Keywords ==> t.kind == t.text)
    {
      var r :| Yielded(r) && Lexeme(r, t.text) && t.kind == KindOf(r, t.text);
      KeywordKind(r, t.text);
    }
  }

  lemma YieldedKindIsNotSkipped(r: Rule, text: string)
    requires Yielded(r)
    ensures KindOf(r, text) !in SkippedKinds
  {
    if KindOf(r, text) != text {
      assert KindOf(r, text) == RuleName(r);
    }
  }

  /** SKIP, COMMENT_L, COMMENT_S, NEWLINE and MISMATCH matches are never yielded. */
  lemma SkippedKindsNeverYielded(s: string)
    ensures forall t :: t in GenToken(s) ==> t.kind !in SkippedKinds
  {
    TokensAreYieldedLexemes(s);
    forall t | t in GenToken(s) ensures t.kind !in SkippedKinds {
      var r :| Yielded(r) && Lexeme(r, t.text) && t.kind == KindOf(r, t.text);
      YieldedKindIsNotSkipped(r, t.text);
    }
  }

  /**
   * The specification of `FirstMatch` determines it: the match at `i` is the
   * one rule that matches with nothing listed earlier matching, taken to its
   * longest lexeme.
   */
  lemma FirstMatchUnique(s: string, i: nat, m: Match)
    requires i < |s| && m.start == i
    requires LongestMatch(m.rule, s, i, m.end)
    requires forall r :: RuleIndex(r) < RuleIndex(m.rule) ==> NoMatch(r, s, i)
    ensures FirstMatch(s, i) == m
  {
    var f := FirstMatch(s, i);
    assert Lexeme(m.rule, s[i..m.end]) && Lexeme(f.rule, s[i..f.end]);
    assert RuleIndex(f.rule) == RuleIndex(m.rule);
    assert f.rule == Rules[RuleIndex(f.rule)] == m.rule;
    assert f.end == m.end;
  }

  /** The rule the first character at `i` selects, in the order the rules are listed. */
  function LeadRule(s: string, i: nat): Rule
    requires i < |s|
  {
    var c := s[i];
    if IsLetter(c) then Id
    else if c == '(' then LBrack
    else if c == ')' then RBrack
    else if c == '.' then Dot
    else if c == ',' then Commar
    else if c == ';' then Semi
    else if IsDigit(c) then Number
    else if c == '\n' then Newline
    else if IsBlank(c) then Skip
    else if c == '/' && i + 1 < |s| && s[i + 1] == '*' && LastClose(s, i + 2, |s|).Some? then CommentL
    else if c == '/' && i + 1 < |s| && s[i + 1] == '/' then CommentS
    else Mismatch
  }

  /** The winning rule at `i` is decided by the character there (and, for `/`, by what follows). */
  lemma LeadRuleWins(s: string, i: nat)
    requires i < |s|
    ensures FirstMatch(s, i).rule == LeadRule(s, i)
    ensures MatchRule(LeadRule(s, i), s, i).Some?
    ensures FirstMatch(s, i).end == MatchRule(LeadRule(s, i), s, i).value
  {
    var r := LeadRule(s, i);
    var e := MatchRule(r, s, i);
    assert e.Some?;
    forall r' | RuleIndex(r') < RuleIndex(r) ensures NoMatch(r', s, i) {
      assert MatchRule(r', s, i).None?;
    }
    FirstMatchUnique(s, i, Match(r, i, e.value));
  }
}

=== FILE: netlist_lexer_vectors.dfy ===
/**
 * Small inputs worked through `gen_token`: single tokens, keyword promotion,
 * the line and column after a NEWLINE, and the greedy block comment that
 * swallows everything up to the last star-slash and hides its own newlines
 * from the line counter.
 */
module NetlistLexerVectors {
  import opened Results
  import opened NetlistLexer
  import opened NetlistLexerFacts

  /** The run of `p` from `j` ends at `e` when `e` is where `p` first fails. */
  lemma {:induction false} RunEndAt(s: string, j: nat, e: nat, p: char -> bool)
    requires j <= e <= |s|
    requires forall k :: j <= k < e ==> p(s[k])
    requires e == |s| || !p(s[e])
    ensures RunEnd(s, j, p) == e
    decreases e - j
  {
    if j < e {
      RunEndAt(s, j + 1, e, p);
    }
  }

  /** An identifier at `i` that no word character follows is the whole match at `i`. */
  lemma IdentifierAt(s: string, i: nat, e: nat)
    requires i < e <= |s| && Lexeme(Id, s[i..e])
    requires e == |s| || !IsWordChar(s[e])
    ensures FirstMatch(s, i) == Match(Id, i, e)
  {
    assert s[i..e][0] == s[i];
    forall k | i + 1 <= k < e ensures IsWordChar(s[k]) {
      assert s[i..e][k - i] == s[k];
    }
    RunEndAt(s, i + 1, e, IsWordChar);
    LeadRuleWins(s, i);
  }

  /** A NEWLINE character is the whole match at its offset. */
  lemma NewlineAt(s: string, i: nat)
    requires i < |s| && s[i] == '\n'
    ensures FirstMatch(s, i) == Match(Newline, i, i + 1)
  {
    LeadRuleWins(s, i);
  }

  /** A digit not followed by a dot and a digit is a NUMBER of its own. */
  lemma DigitAt(s: string, i: nat)
    requires i < |s| && IsDigit(s[i])
    requires !(i + 2 < |s| && s[i + 1] == '.' && IsDigit(s[i + 2]))
    ensures FirstMatch(s, i) == Match(Number, i, i + 1)
  {
    LeadRuleWins(s, i);
  }

  /** One turn of the loop over a match that is known in advance. */
  lemma StepOver(s: string, i: nat, line: nat, lineStart: nat, m: Match)
    requires i < |s| && FirstMatch(s, i) == m
    ensures GenTokenFrom(s, i, line, lineStart)
         == Yield(s, m, line, lineStart) + GenTokenFrom(s, m.end, NextLine(m, line), NextLineStart(m, lineStart))
  {
    GenTokenFromStep(s, i, line, lineStart);
  }

  /** An input that is one identifier or one number is one token, at line 1 and column 0. */
  lemma SingleToken(r: Rule, w: string)
    requires (r == Id || r == Number) && Lexeme(r, w)
    ensures GenToken(w) == [Token(KindOf(r, w), w, 1, 0)]
  {
    var m := Match(r, 0, |w|);
    assert FirstMatch(w, 0) == m by {
      LeadRuleWins(w, 0);
      assert w[0..|w|] == w;
    }
    StepOver(w, 0, 1, 1, m);
    assert w[0..|w|] == w;
  }

  /** A block comment that is the whole input yields nothing. */
  lemma CommentAlone(c: string)
    requires Lexeme(CommentL, c)
    ensures GenToken(c) == []
  {
    var m := Match(CommentL, 0, |c|);
    assert FirstMatch(c, 0) == m by {
      assert ClosesAt(c, |c| - 2);
      LeadRuleWins(c, 0);
      assert c[0..|c|] == c;
    }
    StepOver(c, 0, 1, 1, m);
  }

  /** In a block comment followed by an identifier, the comment closes where it ends. */
  lemma CommentBeforeIdentifier(c: string, w: string)
    requires Lexeme(CommentL, c) && Lexeme(Id, w)
    ensures FirstMatch(c + w, 0) == Match(CommentL, 0, |c|)
  {
    var s := c + w;
    assert ClosesAt(s, |c| - 2);
    forall k | |c| - 2 < k < |s| ensures !ClosesAt(s, k) {
      if k == |c| - 1 {
        assert s[k] == '/';
      } else {
        assert s[k] == w[k - |c|];
      }
    }
    assert LastClose(s, 2, |s|) == Some(|c| - 2);
    LeadRuleWins(s, 0);
  }

  /**
   * An identifier after a block comment: the comment's newlines are not
   * counted, so the identifier stays on line 1 with the comment's length as
   * its column.
   */
  lemma CommentThenIdentifier(c: string, w: string)
    requires Lexeme(CommentL, c) && Lexeme(Id, w)
    ensures GenToken(c + w) == [Token(KindOf(Id, w), w, 1, |c|)]
  {
    var s := c + w;
    var m0 := Match(CommentL, 0, |c|);
    var m1 := Match(Id, |c|, |s|);
    CommentBeforeIdentifier(c, w);
    assert FirstMatch(s, |c|) == m1 by {
      assert s[|c|..|s|] == w;
      IdentifierAt(s, |c|, |s|);
    }
    StepOver(s, 0, 1, 1, m0);
    StepOver(s, |c|, 1, 1, m1);
    assert s[|c|..|s|] == w;
  }

  /** An identifier that runs to the end of the input is the last token. */
  lemma IdentifierLast(s: string, i: nat, line: nat, lineStart: nat)
    requires i < |s| && Lexeme(Id, s[i..])
    ensures GenTokenFrom(s, i, line, lineStart) == [Token(KindOf(Id, s[i..]), s[i..], line, i - lineStart + 1)]
  {
    var m := Match(Id, i, |s|);
    assert s[i..|s|] == s[i..];
    IdentifierAt(s, i, |s|);
    StepOver(s, i, line, lineStart, m);
  }

  /** After the first line's identifier: the NEWLINE, then `b` at line 2, column 1. */
  lemma SecondLine(s: string, i: nat)
    requires i < |s| && s[i] == '\n' && Lexeme(Id, s[i + 1..])
    ensures GenTokenFrom(s, i, 1, 1) == [Token(KindOf(Id, s[i + 1..]), s[i + 1..], 2, 1)]
  {
    NewlineAt(s, i);
    StepOver(s, i, 1, 1, Match(Newline, i, i + 1));
    IdentifierLast(s, i + 1, 2, i + 1);
  }

  /** Two identifiers on two lines: the second is on line 2, column 1. */
  lemma TwoLines(s: string, n: nat)
    requires n < |s| && s[n] == '\n'
    requires Lexeme(Id, s[..n]) && Lexeme(Id, s[n + 1..])
    ensures GenToken(s)
         == [Token(KindOf(Id, s[..n]), s[..n], 1, 0), Token(KindOf(Id, s[n + 1..]), s[n + 1..], 2, 1)]
  {
    var m0 := Match(Id, 0, n);
    assert FirstMatch(s, 0) == m0 by {
      assert s[0..n] == s[..n];
      IdentifierAt(s, 0, n);
    }
    StepOver(s, 0, 1, 1, m0);
    SecondLine(s, n);
    assert s[0..n] == s[..n];
  }

  /** `module` is promoted to its own token type. */
  lemma ModuleKeyword()
    ensures GenToken("module") == [Token("module", "module", 1, 0)]
  {
    SingleToken(Id, "module");
  }

  /** An identifier that merely starts like a keyword keeps the type `ID`. */
  lemma NotAKeyword()
    ensures GenToken("wire1") == [Token("ID", "wire1", 1, 0)]
  {
    SingleToken(Id, "wire1");
  }

  lemma NumberWithGroups()
    ensures GenToken("1.23") == [Token("NUMBER", "1.23", 1, 0)]
  {
    SingleToken(Number, "1.23");
  }

  lemma LineAndColumn()
    ensures GenToken("a\nb") == [Token("ID", "a", 1, 0), Token("ID", "b", 2, 1)]
  {
    var s := "a\nb";
    assert s[..1] == "a" && s[2..] == "b";
    TwoLines(s, 1);
  }

  /** `\d(\.\d+)*` takes a single leading digit, so `12` is two NUMBER tokens. */
  lemma TwoDigitNumber()
    ensures GenToken("12") == [Token("NUMBER", "1", 1, 0), Token("NUMBER", "2", 1, 1)]
  {
    var s := "12";
    DigitAt(s, 0);
    DigitAt(s, 1);
    StepOver(s, 0, 1, 1, Match(Number, 0, 1));
    StepOver(s, 1, 1, 1, Match(Number, 1, 2));
    assert s[0..1] == "1" && s[1..2] == "2";
  }

  /** The comment runs to the last star-slash, so `b` in between is swallowed. */
  lemma GreedyComment()
    ensures GenToken("/*a*/b/*c*/") == []
  {
    CommentAlone("/*a*/b/*c*/");
  }

  lemma CommentNewlineNotCounted()
    ensures GenToken("/*\n*/x") == [Token("ID", "x", 1, 5)]
  {
    CommentThenIdentifier("/*\n*/", "x");
    assert "/*\n*/" + "x" == "/*\n*/x";
  }
}

=== FILE: results.dfy ===
/** Failure-compatible wrappers shared by the lexer and the parser models. */
module Results {

  /** A value that may be absent; Python's `None` for a missing match or token. */
  datatype Option<+T> = None | Some(value: T)

  /** The outcome of an operation that can raise an exception in verilogNet_BNF.py. */
  datatype Result<+T, +E> = Ok(value: T) | Err(error: E) {

    predicate IsFailure() {
      Err?
    }

    function PropagateFailure<U>(): Result<U, E>
      requires Err?
    {
      Err(error)
    }

    function Extract(): T
      requires Ok?
    {
      value
    }
  }
}
